=== FILE: README.md ===
# Lake Shore teslameter driver — a Dafny model

This project models the core of a Python driver for the Lake Shore F41/F71
teslameters, which are XIP instruments spoken to over a USB serial line.

The core has two layers:

- **The XIP instrument layer** (`lakeshore/xip_instrument.py`):
  - frames each SCPI instruction as one ASCII line;
  - appends the error-buffer query `;:SYSTem:ERRor:ALL?` when errors are checked;
  - judges the reply (a timeout when it is empty, an instrument error when it lacks `No error`);
  - removes the success entries `;0,"No error"` and drops trailing whitespace.
- **The teslameter's buffered read-out** (`lakeshore/teslameter.py`, `get_buffered_data`):
  - sets up the sample interval, or reads it back;
  - flushes the buffer with one fetch whose content is discarded;
  - polls `FETC:BUFF:DC?`, splits each batch on `;` and each record on `T`, `:`, `+` and `,`;
  - adds a `"0"` field-control set point to 11-field records;
  - stamps the n-th sample `n * rate / 1000` seconds;
  - stops after the first sample whose count covers the requested duration.

The Dafny modules follow that structure:

| module | file | contents |
|---|---|---|
| `Errors` | `errors.dfy` | one `Error` per exception the code can raise, plus `OutOfReplies`, which marks the model's reply script running out and is not an exception of the code; `Result` and `Option` |
| `Text` | `text.dfy` | the Python string operations used: `in`, `replace(pat, '')`, `rstrip`, trimming from the left, `split` on delimiters, and the inverse `Join` |
| `Numerals` | `numerals.dfy` | `str` and `int()` on integers, and `str(ms / 10)` as one-decimal text |
| `Transport` | `transport.dfy` | the serial line as a `Port`: a script of lines the instrument answers with and a log of lines written |
| `XipInstrument` | `xip_instrument.dfy` | `_usb_command`, `_usb_query`, `_error_check`, `query`, `command` |
| `Teslameter` | `teslameter.dfy` | `DataPoint`, record parsing, the poll loop, configuration, `get_buffered_data` |

Exceptions become `Err` results, and the serial port becomes a value:

- A read that times out returns an empty line. The model represents it as an empty reply in the script.
- The source's `while True` poll has no bound. When the script runs out, the model fails with `OutOfReplies`.
- The duration is an integer number of centiseconds. The source rounds it to two decimals first.
- The sample interval is an integer number of milliseconds.
- Elapsed times are exact rationals.

A buffer record is laid out as `date T hour : minute : second + tz-hour : tz-minute , magnitude , x , y , z , set point , input state`; the set point is absent without field control. Two behaviours are kept exactly as the code has them:

- A record that begins with `T` has no date before the `T`. The code's regular-expression split then yields an empty `date` field and keeps the hour in `hour`. The model does the same.
- A checked `command` sends the error query twice. It appends the query itself, then `query` appends it again. The reply must then pass `_error_check` twice: once on the raw reply and once on the cleaned one. The model keeps both checks (`XipInstrument.AcknowledgedTwice`).

## Model

| member | source | states |
|---|---|---|
| XipInstrument.UsbCommand | lakeshore/xip_instrument.py:110-112 | a command is written exactly when it is ASCII, as that text plus one line feed, and nothing is read; otherwise the encode error is raised |
| XipInstrument.UsbQuery | lakeshore/xip_instrument.py:114-119 | a query succeeds iff the query is ASCII and the next reply exists and is ASCII; it then writes the framed query and returns exactly that one reply; otherwise it fails with the encode error, then exhaustion of the script, then the decode error, checked in that order |
| XipInstrument.ErrorCheck | lakeshore/xip_instrument.py:62-76 | a reply passes iff it is non-empty and contains `No error`; an empty reply is the timeout error, and it is not an SCPI error; any other failure is an SCPI error whose text after the prefix is the reply's last `;`-separated field |
| Text.LastFieldUnique | lakeshore/xip_instrument.py:73-74 | the last `;`-separated field of a text is unique, so the reported error text is determined by the reply |
| Text.LastPieceIsLastField | lakeshore/xip_instrument.py:73-74 | the last piece of `split(';')` is the text's last field: a suffix with no `;` that is the whole text or follows a `;` |
| XipInstrument.Query | lakeshore/xip_instrument.py:44-60 | a successful query consumes one reply and logs the query, with the error query appended iff errors are checked; the result never ends in whitespace; unchecked, it succeeds iff both sides are ASCII and returns the reply right-stripped; checked, it succeeds iff the reply also passes the error check and returns the reply with success entries removed, right-stripped; a checked ASCII reply that fails the error check raises exactly the error `_error_check` raises on it, so an empty reply is the timeout |
| XipInstrument.CheckedQueryReturnsPayload | lakeshore/xip_instrument.py:54-60 | a reply made of a payload without success entries, one success entry and trailing whitespace gives back exactly the right-stripped payload from a checked query |
| XipInstrument.CheckedQueryCanKeepEntry | lakeshore/xip_instrument.py:57 | a reply in which one removal splices two halves into a new success entry passes the check, and its result still contains a success entry |
| Text.RemoveAllAround | lakeshore/xip_instrument.py:57 | for a pattern whose first character occurs nowhere else in it, removal from `a + pat + t` is removal from `a` followed by removal from `t`: the occurrence between them is removed and no other text is |
| Text.RemoveAllAbsent | lakeshore/xip_instrument.py:57 | `replace(pat, '')` leaves text without `pat` unchanged |
| Text.RemovalCanSplice | lakeshore/xip_instrument.py:57 | when `head + tail` is the pattern itself, removing the pattern from `head + pat + tail` leaves exactly the pattern: the removal creates a new occurrence from the text on either side |
| Text.TrimRight | lakeshore/xip_instrument.py:60 | right-stripping gives a prefix of the text; the part removed is all strippable; the result is empty or ends in a character that is kept |
| Text.TrimRightAppend | lakeshore/xip_instrument.py:60 | appending only strippable characters does not change the right-stripped text |
| XipInstrument.Command | lakeshore/xip_instrument.py:31-42 | unchecked, a command succeeds iff it is ASCII, writes one line and reads nothing, and otherwise raises the encode error; checked, it succeeds iff the one reply it consumes passes both error checks, logs the command with the error query twice, and otherwise raises the first failure met, as for `CheckedCommand` |
| XipInstrument.CheckedCommand | lakeshore/xip_instrument.py:34-38 | the checked branch succeeds iff the command and reply are ASCII, the reply passes the error check, and the cleaned reply passes it again; it then consumes that reply and logs the doubly-suffixed command; a failure is, in this order, the encode error, exhaustion of the script, the decode error, the error of the check on the raw reply, or the error of the check on the cleaned reply |
| XipInstrument.CheckedCommandLoneEntryTimesOut | lakeshore/xip_instrument.py:34-38 | a checked command whose reply is one success entry and a line feed passes the first check, but the cleaned reply is empty, so the second check raises the timeout |
| XipInstrument.CheckedCommandAcknowledged | lakeshore/xip_instrument.py:34-38 | the acknowledgement `0,"No error";0,"No error"` followed by a line feed passes both checks and consumes exactly one reply |
| Text.Split | lakeshore/teslameter.py:54 | splitting always yields at least one piece, and no piece contains a delimiter |
| Text.SplitThenJoin | lakeshore/teslameter.py:54 | a split has one more piece than the text has delimiters, and joining the pieces with those delimiters rebuilds the text |
| Text.JoinThenSplit | lakeshore/teslameter.py:58 | splitting the join of delimiter-free pieces gives back the pieces and the separators used |
| Teslameter.RecordsOfFramedBatch | lakeshore/teslameter.py:54 | a batch of `;`-free records, each followed by `;` and the last non-empty, splits back into exactly those records in order |
| Teslameter.Normalize | lakeshore/teslameter.py:61-64 | an 11-field record gains `"0"` just before its last field, and the other fields keep their order; any other field count is unchanged |
| Teslameter.MakePoint | lakeshore/teslameter.py:7-9 | a sample can be built iff there are exactly twelve fields; its time is the given one and its slots are the fields in order; otherwise it is the argument-count error |
| Teslameter.RecordMakesPoint | lakeshore/teslameter.py:58-70 | a record yields a sample iff it has exactly 10 or 11 field delimiters, that is 11 or 12 fields before normalisation |
| Teslameter.PointFromJoinedFields | lakeshore/teslameter.py:58-70 | a sample whose twelve fields are written out with any eleven delimiters parses back to the same sample |
| Teslameter.SampleSpacing | lakeshore/teslameter.py:67 | consecutive samples of a successful session are exactly one interval, `rate / 1000` seconds, apart, also across batch boundaries |
| Teslameter.LeastSampleCountStops | lakeshore/teslameter.py:80 | for a positive interval the least covering count is positive, covers the duration, and no smaller positive count does |
| Teslameter.OnlyLeastSampleCountStops | lakeshore/teslameter.py:80 | a positive count that covers the duration while no smaller count does is the least covering count |
| Teslameter.ConsumeBatch | lakeshore/teslameter.py:56-83 | a batch extends the samples in record order with the right stamps; a batch that stops the session has just covered the duration; a drained batch added all its records without covering it; it fails exactly when some record reached before the duration is covered does not give twelve fields, and the failure is always the argument-count error |
| Teslameter.BatchFailsStep | lakeshore/teslameter.py:56-83 | a batch fails iff its first record lacks twelve fields, or the duration is still uncovered after that record and the rest of the batch fails |
| Teslameter.EmptyBatchSkipped | lakeshore/teslameter.py:49-52 | a fetched response without `;` adds no samples and the loop continues one fetch later |
| Teslameter.PollLoop | lakeshore/teslameter.py:48-83 | a successful poll writes one fetch per consumed reply and stops right after the reply that brought the last sample's record: the replies before it brought fewer records; the samples extend the earlier ones with the arriving records in order, and only the last covers the duration; a failure names the first failure the loop meets: a record without twelve fields, reached before the duration is covered, in a reply that decodes after replies that decode; the first undecodable reply, reached before the duration is covered and after replies whose records were all well-formed; or exhaustion, with every reply decodable, every record well-formed and the duration never covered |
| Teslameter.PollFailsExclusive | lakeshore/teslameter.py:48-83 | the three failures exclude one another, so a script determines which error the loop raises |
| Teslameter.PollLoopSucceeds | lakeshore/teslameter.py:48-83 | a poll succeeds when some prefix of the script decodes, brings enough records to cover the duration, and holds no record without twelve fields before the covering one |
| Numerals.TenthsTextValue | lakeshore/teslameter.py:32 | the rendered averaging count denotes exactly `rate / 10` for every integer rate |
| Numerals.ParseIntOfIntToString | lakeshore/teslameter.py:34 | `int(str(n)) == n` for every integer |
| Numerals.ParseInt | lakeshore/teslameter.py:34 | `int()` succeeds iff the text, with its whitespace stripped, is a numeral: an optional `+` or `-`, then one or more ASCII digits and nothing else; the value is the numeral's signed value; any other text, the empty one included, raises the value error |
| Numerals.ParseIntRejectsSeparator | lakeshore/teslameter.py:34 | a numeral behind one of the controls 0x1C to 0x1F is refused with the value error, although `rstrip` counts those controls as whitespace |
| Numerals.ParseIntIgnoresSpace | lakeshore/teslameter.py:34 | spaces and tab to carriage return on either side of a text do not change how `int()` reads it |
| Teslameter.SetCount | lakeshore/teslameter.py:31-32 | an explicit interval is set iff a checked count command's reply passes both checks; the interval is then the one given, and one reply is consumed; otherwise the error is the checked command's, as `CheckedCommand` orders them |
| Teslameter.ReadCount | lakeshore/teslameter.py:33-34 | without an interval, setup succeeds iff the checked count query succeeds and `int()` accepts its result; the interval is ten times that integer; otherwise the error is, in this order, exhaustion of the script, the decode error, the error check's error, or the value error of `int()` |
| Teslameter.SeparatorCountRejected | lakeshore/teslameter.py:33-34 | a count reply such as `\x1c5;0,"No error"` and a line feed passes the error check, keeps the control through right-stripping, and is refused by `int()` with the value error |
| Teslameter.LoneEntryCountRejected | lakeshore/teslameter.py:33-34 | a count reply of only `;0,"No error"` and a line feed passes the error check but leaves an empty count, which `int()` refuses with the value error |
| Teslameter.Configure | lakeshore/teslameter.py:31-34 | setup succeeds iff the first reply is accepted for the chosen branch; it consumes that reply only, logs the branch's line, and yields the given interval or ten times the count read back; a failure raises the error of the chosen branch |
| Teslameter.FlushAndPoll | lakeshore/teslameter.py:37-49 | after setup, one fetch is consumed unread, and the poll starts from no samples on the replies after it; with no reply left the flush fails with exhaustion, an undecodable flush reply raises the decode error, and after a decodable one a failure is the poll loop's first failure |
| Teslameter.GetBufferedData | lakeshore/teslameter.py:24-83 | a successful session configured successfully, then consumed the setup reply, the flush reply and the poll replies up to the one that brought the covering record, logging one setup line and one fetch per reply read; its samples are those of a poll from nothing after the flush; a failed setup raises the setup's error, and after a successful setup a missing flush reply is exhaustion and an undecodable one the decode error |
| Teslameter.SessionIsPoll | lakeshore/teslameter.py:31-49 | once setup succeeds and the flush reply decodes, the session is the poll loop from no samples on the replies after the flush |
| Teslameter.SessionSucceeds | lakeshore/teslameter.py:24-83 | such a session succeeds when its poll replies meet the conditions of `PollLoopSucceeds` |
| Teslameter.SessionFails | lakeshore/teslameter.py:24-83 | such a session fails with the poll loop's first failure on the replies after the flush, counted from no samples |
| Teslameter.SessionStopsAtLeastCount | lakeshore/teslameter.py:79-83 | a session never covers the duration before its last sample; for a positive interval its sample count is the least covering count |
| Teslameter.SessionSamples | lakeshore/teslameter.py:67-71 | the n-th sample of a session is stamped `n * rate / 1000` and holds the fields of the n-th record to arrive after the flush |
| Teslameter.FlushIgnored | lakeshore/teslameter.py:37-39 | the flush reply's content does not matter: another ASCII reply there gives a session that succeeds exactly when this one does, with the same result |
| Teslameter.OneRecordSession | lakeshore/teslameter.py:24-83 | for a 10 ms interval over 0.01 s, an acknowledged count command, any decodable flush reply and one reply holding one full record give exactly that record's sample, stamped 0.01 s, after three reads and three writes |
| Teslameter.TenMillisecondsForThirtyMilliseconds | lakeshore/teslameter.py:67-83 | a 10 ms interval over 0.03 s gives exactly three samples, stamped 0.01, 0.02 and 0.03 s |

## Left out

- `connect_usb`, `disconnect_usb` and `__del__` are left out. Port discovery by USB vendor and product id, opening a serial line, the 100 ms sleep and closing are device I/O. The model starts from an open `Port`.
- The constructors are left out, including the `*IDN?` read of firmware version and model number. They only call I/O. `Teslameter.__init__` passes six arguments to a parent initialiser that takes five, so it fails before anything the model covers.
- The optional CSV file (`file_name`) is left out. It is output only and does not change the returned samples.
- `round(length, 2)` is left out. The duration is taken as integer centiseconds.
- Floating-point error in `length * 1000` and in `n * rate / 1000` is not modelled. Both are exact here, so a duration such as 4.03 s is not covered. Python computes `4.03 * 1000` as `4030.0000000000005`, so with a 10 ms interval it takes 404 samples; `LeastSampleCount` gives 403.
- Numerals.TenthsText: renders `str(rate / 10)` as the exact one-decimal text of `rate / 10`, and only integer intervals are modelled. Python prints the shortest text of the nearest double. The two agree while `|rate| < 10 * 2^49`, where doubles are at most 1/16 apart. Beyond that they can differ: `rate = 2^53 + 1` prints `900719925474099.2` in Python and `900719925474099.3` here. From `rate / 10 >= 10^16`, Python also switches to exponent notation.
- Numerals.ParseInt: Python's `int()` also accepts underscores between digits, non-ASCII digits and non-ASCII whitespace; the model rejects all three. Replies are ASCII, so on replies the difference is only the underscore. Its ASCII whitespace, space and tab to carriage return, is modelled exactly.
- A serial read that returns a partial line without a terminator is not distinguished from a full line. An empty read is the timeout.
- XipInstrument.Query: does not promise that a checked result is free of `;0,"No error"`. That promise is false: removal can splice a new entry (`XipInstrument.CheckedQueryCanKeepEntry`). The contract states the removal itself. `XipInstrument.CheckedQueryReturnsPayload` proves that a payload without the entry comes back exactly.
- Failed calls return only the error, not the port. A line written before the failure is not in any log the model returns. Examples are a checked command the instrument rejects, or a query whose reply does not decode. The write logs are stated for successful calls only.
- Teslameter.FlushIgnored: compares the results when the sessions succeed, and whether they succeed, but not which error a failed session reports.

=== FILE: errors.dfy ===
/** The failures the driver can raise, and the failure-compatible result type
    that replaces Python exceptions throughout the model. */
module Errors {

  /** One constructor per exception the modelled code can raise. */
  datatype Error =
    /** `XIPInstrumentConnectionException`, with its message text. */
    | Connection(message: string)
    /** `str.encode('ascii')` met a non-ASCII character in an outgoing instruction. */
    | UnicodeEncode
    /** `bytes.decode('ascii')` met a non-ASCII byte in a reply. */
    | UnicodeDecode
    /** `int(...)` was given text that is not a decimal integer. */
    | Value
    /** `DataPoint(...)` was given a number of arguments other than 13. */
    | Type
    /** The finite script of transport replies is used up; stands in for the
        source's unbounded blocking poll. */
    | OutOfReplies

  /** Either a value or the error that aborted the computation. */
  datatype Result<+T> = Ok(value: T) | Err(error: Error) {

    predicate IsFailure() {
      Err?
    }

    function PropagateFailure<U>(): Result<U>
      requires Err?
    {
      Err(error)
    }

    function Extract(): T
      requires Ok?
    {
      value
    }
  }

  datatype Option<+T> = None | Some(value: T)
}

=== FILE: numerals.dfy ===
/** Conversions between integers and their decimal text: Python's `str` of an
    integer, `int(...)` of a reply, and `str(ms / 10)` of the averaging count. */
module Numerals {
  import opened Errors
  import opened Text

  predicate IsDigit(c: char) {
    '0' <= c <= '9'
  }

  predicate AllDigits(s: string) {
    forall i :: 0 <= i < |s| ==> IsDigit(s[i])
  }

  function DigitChar(d: nat): (c: char)
    requires d < 10
    ensures IsDigit(c) && c as int - '0' as int == d
  {
    ('0' as int + d) as char
  }

  /** The value of a digit string, most significant digit first. */
  function DigitsValue(s: string): nat
    requires AllDigits(s)
    decreases |s|
  {
    if |s| == 0 then 0
    else 10 * DigitsValue(s[..|s| - 1]) + (s[|s| - 1] as int - '0' as int)
  }

  /** Python's `str(n)` for a non-negative integer: shortest digit string. */
  function NatToString(n: nat): (s: string)
    ensures |s| >= 1 && AllDigits(s)
    ensures |s| > 1 ==> s[0] != '0'
    decreases n
  {
    if n < 10 then [DigitChar(n)] else NatToString(n / 10) + [DigitChar(n % 10)]
  }

  /** Reading back the digits of a rendered number gives the number. */
  lemma {:induction false} NatToStringValue(n: nat)
    ensures DigitsValue(NatToString(n)) == n
    decreases n
  {
    if n >= 10 {
      NatToStringValue(n / 10);
      var s := NatToString(n);
      assert s[..|s| - 1] == NatToString(n / 10);
    }
  }

  /** Python's `str(n)` for any integer. */
  function IntToString(n: int): string {
    if n < 0 then "-" + NatToString(-n) else NatToString(n)
  }

  /** The ASCII whitespace `int()` ignores around a numeral: space and tab
      through carriage return. Unlike `str.isspace`, it does not include the
      separators 0x1C to 0x1F. */
  predicate IsIntSpace(c: char) {
    c == ' ' || 9 <= c as int <= 13
  }

  /** The text `int()` reads: `s` without surrounding `int()` whitespace. */
  function IntStrip(s: string): string {
    TrimLeft(TrimRight(s, IsIntSpace), IsIntSpace)
  }

  /** Python's `int(s)` on text: surrounding whitespace ignored, an optional
      `+` or `-`, then one or more ASCII digits; anything else raises
      `ValueError`. */
  function ParseInt(s: string): (r: Result<int>)
    ensures r.Ok? <==> IsNumeral(IntStrip(s))
    ensures r.Ok? ==> r.value == NumeralValue(IntStrip(s))
    ensures r.Err? ==> r.error == Value
  {
    ParseSigned(IntStrip(s))
  }

  /** What `int()` accepts once the whitespace is gone, character by
      character: digits throughout, except that a first character `+` or
      `-` is allowed before at least one digit. */
  predicate IsNumeral(t: string) {
    && |t| > 0
    && (forall i :: 0 < i < |t| ==> IsDigit(t[i]))
    && (IsDigit(t[0]) || (|t| > 1 && (t[0] == '+' || t[0] == '-')))
  }

  /** The integer a numeral denotes. */
  function NumeralValue(t: string): int
    requires IsNumeral(t)
  {
    if IsDigit(t[0]) then
      DigitsValue(t)
    else
      assert AllDigits(t[1..]) by {
        assert forall i :: 0 <= i < |t| - 1 ==> t[1..][i] == t[i + 1];
      }
      var magnitude: int := DigitsValue(t[1..]);
      if t[0] == '-' then -magnitude else magnitude
  }

  /** `ParseInt` once the whitespace is gone. */
  function ParseSigned(t: string): (r: Result<int>)
    ensures r.Ok? <==> IsNumeral(t)
    ensures r.Ok? ==> r.value == NumeralValue(t)
    ensures r.Err? ==> r.error == Value
  {
    NumeralShape(t);
    var signed := |t| > 0 && (t[0] == '-' || t[0] == '+');
    var body := if signed then t[1..] else t;
    if |body| > 0 && AllDigits(body) then
      var magnitude: int := DigitsValue(body);
      Ok(if |t| > 0 && t[0] == '-' then -magnitude else magnitude)
    else
      Err(Value)
  }

  /** A numeral is a signed or unsigned digit string, and nothing else is. */
  lemma NumeralShape(t: string)
    ensures |t| > 0 && (t[0] == '-' || t[0] == '+') ==>
              (IsNumeral(t) <==> |t[1..]| > 0 && AllDigits(t[1..]))
    ensures |t| > 0 && !(t[0] == '-' || t[0] == '+') ==> (IsNumeral(t) <==> AllDigits(t))
    ensures |t| == 0 ==> !IsNumeral(t)
  {
    if |t| > 0 {
      assert forall i :: 0 <= i < |t| - 1 ==> t[1..][i] == t[i + 1];
    }
  }

  /** Text that neither starts nor ends with whitespace is its own strip. */
  lemma StripUnspaced(s: string)
    requires |s| > 0 && !IsIntSpace(s[0]) && !IsIntSpace(s[|s| - 1])
    ensures IntStrip(s) == s
  {
    assert TrimRight(s, IsIntSpace) == s;
  }

  /** `int()` rejects a numeral behind one of the separators 0x1C to 0x1F,
      although `str.isspace` counts them as whitespace. */
  lemma ParseIntRejectsSeparator(c: char, digits: string)
    requires 28 <= c as int <= 31 && |digits| > 0 && AllDigits(digits)
    ensures ParseInt([c] + digits) == Err(Value)
  {
    var t := [c] + digits;
    assert t[|t| - 1] == digits[|digits| - 1];
    StripUnspaced(t);
    assert !IsDigit(t[0]);
  }

  /** `int()` ignores its whitespace on both sides of a numeral. */
  lemma ParseIntIgnoresSpace(before: string, t: string, after: string)
    requires forall i :: 0 <= i < |before| ==> IsIntSpace(before[i])
    requires forall i :: 0 <= i < |after| ==> IsIntSpace(after[i])
    requires |t| > 0 && !IsIntSpace(t[0]) && !IsIntSpace(t[|t| - 1])
    ensures ParseInt(before + t + after) == ParseSigned(t)
  {
    TrimRightAppend(before + t, after, IsIntSpace);
    assert TrimRight(before + t, IsIntSpace) == before + t by {
      assert (before + t)[|before + t| - 1] == t[|t| - 1];
    }
    TrimLeftPrepend(before, t, IsIntSpace);
  }

  /** `int(str(n)) == n`. */
  lemma ParseIntOfIntToString(n: int)
    ensures ParseInt(IntToString(n)) == Ok(n)
  {
    if n < 0 {
      ParseIntOfNegative(n);
    } else {
      ParseIntOfNonNegative(n);
    }
  }

  lemma ParseIntOfNegative(n: int)
    requires n < 0
    ensures ParseInt(IntToString(n)) == Ok(n)
  {
    ParseNegated(-n);
  }

  /** The text of a negative number reads back as that number. */
  lemma ParseNegated(m: nat)
    requires m > 0
    ensures ParseInt(IntToString(-(m as int))) == Ok(-(m as int))
  {
    NatToStringValue(m);
    ParseMinus(NatToString(m), m);
  }

  /** A minus sign before a digit string negates its value. */
  lemma ParseMinus(digits: string, value: int)
    requires |digits| > 0 && AllDigits(digits) && DigitsValue(digits) == value
    ensures ParseInt("-" + digits) == Ok(-value)
  {
    MinusUnspaced(digits);
    SignedMinus(digits);
  }

  lemma MinusUnspaced(digits: string)
    requires |digits| > 0 && AllDigits(digits)
    ensures IntStrip("-" + digits) == "-" + digits
  {
    var t := "-" + digits;
    assert t[|t| - 1] == digits[|digits| - 1];
    StripUnspaced(t);
  }

  lemma SignedMinus(digits: string)
    requires |digits| > 0 && AllDigits(digits)
    ensures ParseSigned("-" + digits) == Ok(-(DigitsValue(digits) as int))
  {
    assert ("-" + digits)[1..] == digits;
  }

  lemma ParseIntOfNonNegative(n: int)
    requires n >= 0
    ensures ParseInt(IntToString(n)) == Ok(n)
  {
    NatToStringValue(n);
    ParseDigits(NatToString(n));
  }

  /** A bare digit string reads as its value. */
  lemma ParseDigits(digits: string)
    requires |digits| > 0 && AllDigits(digits)
    ensures ParseInt(digits) == Ok(DigitsValue(digits))
  {
    StripUnspaced(digits);
    assert ParseSigned(digits) == Ok(DigitsValue(digits));
  }

  /** Python's `str(n / 10)` for an integer `n`: sign, the whole tenths, a
      point and the last digit. */
  function TenthsText(n: int): string {
    var m := if n < 0 then -n else n;
    (if n < 0 then "-" else "") + NatToString(m / 10) + "." + [DigitChar(m % 10)]
  }

  /** The number a text of the shape `[-]digits.digit` denotes, as an exact
      rational; `None` for any other text. */
  function TenthsValue(t: string): Option<real> {
    if |t| >= 3 && t[|t| - 2] == '.' && IsDigit(t[|t| - 1]) then
      var negative := t[0] == '-';
      var whole := if negative then t[1..|t| - 2] else t[..|t| - 2];
      if |whole| > 0 && AllDigits(whole) then
        var magnitude := (10 * DigitsValue(whole) + (t[|t| - 1] as int - '0' as int)) as real / 10.0;
        Some(if negative then -magnitude else magnitude)
      else None
    else None
  }

  /** The rendered averaging count denotes exactly `n / 10`. */
  lemma TenthsTextValue(n: int)
    ensures TenthsValue(TenthsText(n)) == Some(n as real / 10.0)
  {
    var m := if n < 0 then -n else n;
    var whole := NatToString(m / 10);
    var d := DigitChar(m % 10);
    assert DigitsValue(whole) == m / 10 by {
      NatToStringValue(m / 10);
    }
    assert Tenths(whole, d) == m as real / 10.0;
    if n < 0 {
      assert TenthsText(n) == "-" + whole + "." + [d];
      NegativeTenthsValue(whole, d);
    } else {
      assert TenthsText(n) == whole + "." + [d];
      TenthsValueOf(whole, d);
    }
  }

  /** The value of `whole.d`. */
  function Tenths(whole: string, d: char): real
    requires AllDigits(whole) && IsDigit(d)
  {
    (10 * DigitsValue(whole) + (d as int - '0' as int)) as real / 10.0
  }

  lemma TenthsValueOf(whole: string, d: char)
    requires |whole| > 0 && AllDigits(whole) && IsDigit(d)
    ensures TenthsValue(whole + "." + [d]) == Some(Tenths(whole, d))
  {
    var t := whole + "." + [d];
    assert t[|t| - 2] == '.' && t[|t| - 1] == d;
    assert t[0] == whole[0] && IsDigit(whole[0]);
    assert t[..|t| - 2] == whole;
  }

  lemma NegativeTenthsValue(whole: string, d: char)
    requires |whole| > 0 && AllDigits(whole) && IsDigit(d)
    ensures TenthsValue("-" + whole + "." + [d]) == Some(-Tenths(whole, d))
  {
    var t := "-" + whole + "." + [d];
    assert t[|t| - 2] == '.' && t[|t| - 1] == d;
    assert t[0] == '-';
    assert t[1..|t| - 2] == whole;
  }
}

=== FILE: teslameter.dfy ===
/** The F41/F71 teslameter's buffered read-out: configure the sample
    interval, flush the instrument's buffer, then poll the buffer, split each
    batch into records and each record into fields, and accumulate samples
    with a synthetic clock until the requested duration is covered. */
module Teslameter {
  import opened Errors
  import opened Text
  import opened Numerals
  import opened Transport
  import opened XipInstrument

  /** One sample: the `DataPoint` namedtuple, elapsed time first and then the
      twelve text fields of a normalised record. */
  datatype DataPoint = DataPoint(
    timeElapsed: real,
    date: string,
    hour: string,
    minute: string,
    second: string,
    timeZoneHour: string,
    timeZoneMinute: string,
    magnitude: string,
    x: string,
    y: string,
    z: string,
    fieldControlSetPoint: string,
    inputState: string)
  {
    /** The twelve slots after `timeElapsed`, in declaration order. */
    function Fields(): seq<string> {
      [date, hour, minute, second, timeZoneHour, timeZoneMinute,
       magnitude, x, y, z, fieldControlSetPoint, inputState]
    }
  }

  /** The characters that separate the fields of one record. */
  const FieldDelimiters: set<char> := {'T', ':', '+', ','}
  const FetchQuery := "FETC:BUFF:DC?"
  const FetchLine := FetchQuery + "\n"
  const CountQuery := "SENSE:AVERAGE:COUNT?"
  const CountCommandPrefix := "SENSE:AVERAGE:COUNT "

  // ---------------------------------------------------------------------------
  // One record
  // ---------------------------------------------------------------------------

  /** A record from an instrument without field control has 11 fields: a
      `"0"` set point goes in before the final input state. Any other field
      list is left as it is. */
  function Normalize(fields: seq<string>): (r: seq<string>)
    ensures |fields| == 11 ==> |r| == 12 && r[..10] == fields[..10] && r[10] == "0" && r[11] == fields[10]
    ensures |fields| != 11 ==> r == fields
  {
    if |fields| == 11 then fields[..10] + ["0", fields[10]] else fields
  }

  /** The fields of one record, split on every field delimiter and normalised. */
  function ParseFields(record: string): seq<string> {
    Normalize(Split(record, FieldDelimiters))
  }

  /** `DataPoint(elapsed, *fields)`: exactly twelve fields fill the tuple;
      any other number is a `TypeError`. */
  function MakePoint(elapsed: real, fields: seq<string>): (r: Result<DataPoint>)
    ensures r.Ok? <==> |fields| == 12
    ensures r.Ok? ==> r.value.timeElapsed == elapsed && r.value.Fields() == fields
    ensures r.Err? ==> r.error == Type
  {
    if |fields| == 12 then
      Ok(DataPoint(elapsed, fields[0], fields[1], fields[2], fields[3], fields[4], fields[5],
                   fields[6], fields[7], fields[8], fields[9], fields[10], fields[11]))
    else
      Err(Type)
  }

  /** A record yields a sample exactly when it has 10 or 11 field delimiters,
      that is 11 or 12 fields before normalisation. */
  lemma RecordMakesPoint(elapsed: real, record: string)
    ensures MakePoint(elapsed, ParseFields(record)).Ok?
            <==> |Separators(record, FieldDelimiters)| == 10 || |Separators(record, FieldDelimiters)| == 11
  {
    SplitThenJoin(record, FieldDelimiters);
  }

  /** A sample's fields are recovered by splitting the record the instrument
      would send for it: the fields glued with the delimiters, read back. */
  lemma {:induction false} PointFromJoinedFields(p: DataPoint, seps: string)
    requires |seps| == 11
    requires forall i :: 0 <= i < |seps| ==> seps[i] in FieldDelimiters
    requires forall k :: 0 <= k < 12 ==> FreeOf(p.Fields()[k], FieldDelimiters)
    ensures MakePoint(p.timeElapsed, ParseFields(Join(p.Fields(), seps))) == Ok(p)
  {
    JoinThenSplit(p.Fields(), seps, FieldDelimiters);
  }

  // ---------------------------------------------------------------------------
  // Clock and stopping rule
  // ---------------------------------------------------------------------------

  /** Elapsed seconds of the `n`-th sample (1-based): `n * rate / 1000`. */
  function Elapsed(n: int, rateMs: int): real {
    (n * rateMs) as real / 1000.0
  }

  /** `n * rate >= seconds * 1000` with the duration in centiseconds. */
  predicate TimeIsUp(n: int, rateMs: int, durationCs: int) {
    n * rateMs >= durationCs * 10
  }

  /** Time is up at no count in `from + 1 .. upto`. */
  predicate NeverUp(from: int, upto: int, rateMs: int, durationCs: int) {
    forall k :: from < k <= upto ==> !TimeIsUp(k, rateMs, durationCs)
  }

  /** Two adjacent stretches without a stop make one. */
  lemma NeverUpJoin(a: int, b: int, c: int, rateMs: int, durationCs: int)
    requires NeverUp(a, b, rateMs, durationCs) && NeverUp(b, c, rateMs, durationCs)
    ensures NeverUp(a, c, rateMs, durationCs)
  {
  }

  /** Consecutive values of the clock are one interval apart. */
  lemma ElapsedStep(n: int, rateMs: int)
    ensures Elapsed(n + 1, rateMs) - Elapsed(n, rateMs) == rateMs as real / 1000.0
  {
    assert (n + 1) * rateMs == n * rateMs + rateMs;
  }

  /** The smallest positive sample count whose span reaches the duration. */
  function LeastSampleCount(rateMs: int, durationCs: int): int
    requires rateMs > 0
  {
    if durationCs * 10 <= rateMs then 1 else (durationCs * 10 + rateMs - 1) / rateMs
  }

  /** `LeastSampleCount` is a count at which time is up, and none before it is. */
  lemma LeastSampleCountStops(rateMs: int, durationCs: int)
    requires rateMs > 0
    ensures LeastSampleCount(rateMs, durationCs) >= 1
    ensures TimeIsUp(LeastSampleCount(rateMs, durationCs), rateMs, durationCs)
    ensures forall k :: 0 < k < LeastSampleCount(rateMs, durationCs) ==> !TimeIsUp(k, rateMs, durationCs)
  {
    var target := durationCs * 10;
    if target > rateMs {
      var q := (target + rateMs - 1) / rateMs;
      var m := (target + rateMs - 1) % rateMs;
      assert target + rateMs - 1 == q * rateMs + m;
      assert q * rateMs >= target;
      assert (q - 1) * rateMs < target;
      assert q * rateMs > 0;
      forall k | 0 < k < q
        ensures !TimeIsUp(k, rateMs, durationCs)
      {
        assert k * rateMs <= (q - 1) * rateMs;
      }
    }
  }

  /** With a positive interval, a count that stops and has no earlier stopping
      count is `LeastSampleCount`. */
  lemma OnlyLeastSampleCountStops(n: int, rateMs: int, durationCs: int)
    requires rateMs > 0 && n >= 1
    requires TimeIsUp(n, rateMs, durationCs)
    requires forall k :: 0 < k < n ==> !TimeIsUp(k, rateMs, durationCs)
    ensures n == LeastSampleCount(rateMs, durationCs)
  {
    var least := LeastSampleCount(rateMs, durationCs);
    LeastSampleCountStops(rateMs, durationCs);
  }

  // ---------------------------------------------------------------------------
  // One batch
  // ---------------------------------------------------------------------------

  /** The records of a poll response: all trailing `;` removed, then split on
      `;`. */
  function Records(response: string): seq<string> {
    Split(TrimRight(response, IsSemicolon), RecordSeparator)
  }

  /** The records a poll response contributes: none when it holds no `;`. */
  function Arrived(response: string): seq<string> {
    if ';' in response then Records(response) else []
  }

  /** A response holding `;` contributes its records. */
  lemma BatchArrived(response: string)
    requires ';' in response
    ensures Arrived(response) == Records(response)
  {
  }

  /** The records of a whole script of poll replies, in arrival order, each
      reply right-stripped as the unchecked query returns it. */
  function Arrivals(replies: seq<string>): seq<string>
    decreases |replies|
  {
    if |replies| == 0 then [] else Arrived(RStrip(replies[0])) + Arrivals(replies[1..])
  }

  /** The records of two stretches of replies, one after the other. */
  lemma {:induction false} ArrivalsAppend(a: seq<string>, b: seq<string>)
    ensures Arrivals(a + b) == Arrivals(a) + Arrivals(b)
    decreases |a|
  {
    if |a| == 0 {
      assert a + b == b;
    } else {
      var first := Arrived(RStrip(a[0]));
      assert (a + b)[0] == a[0] && (a + b)[1..] == a[1..] + b;
      ArrivalsAppend(a[1..], b);
      calc {
        Arrivals(a + b);
        first + Arrivals(a[1..] + b);
        first + (Arrivals(a[1..]) + Arrivals(b));
        (first + Arrivals(a[1..])) + Arrivals(b);
      }
    }
  }

  /** The records of the first `n` replies: those of the first reply, then
      those of the next `n - 1`. */
  lemma ArrivalsPrefix(replies: seq<string>, n: int)
    requires 0 < n <= |replies|
    ensures Arrivals(replies[..n]) == Arrived(RStrip(replies[0])) + Arrivals(replies[1..][..n - 1])
  {
    assert replies[..n][0] == replies[0];
    assert replies[..n][1..] == replies[1..][..n - 1];
  }

  /** The instrument's framing, each record followed by `;`, is undone by
      `Records`, provided no record holds a `;` and the last is not empty. */
  lemma {:induction false} RecordsOfFramedBatch(records: seq<string>)
    requires |records| > 0 && |Last(records)| > 0
    requires forall k :: 0 <= k < |records| ==> FreeOf(records[k], RecordSeparator)
    ensures Records(Join(records, Repeat(';', |records| - 1)) + ";") == records
  {
    var body := Join(records, Repeat(';', |records| - 1));
    JoinEndsWithLast(records, Repeat(';', |records| - 1));
    assert (body + ";")[..|body|] == body;
    assert TrimRight(body + ";", IsSemicolon) == body;
    JoinThenSplit(records, Repeat(';', |records| - 1), RecordSeparator);
  }

  /** A join ends with its last piece. */
  lemma {:induction false} JoinEndsWithLast(pieces: seq<string>, seps: string)
    requires |pieces| == |seps| + 1
    ensures |Join(pieces, seps)| >= |Last(pieces)|
    ensures Join(pieces, seps)[|Join(pieces, seps)| - |Last(pieces)|..] == Last(pieces)
    decreases |seps|
  {
    if |seps| > 0 {
      JoinEndsWithLast(pieces[1..], seps[1..]);
      assert Last(pieces[1..]) == Last(pieces);
    }
  }

  /** `acc` grew into `samples` by the leading `records`: every new sample is
      the next record, numbered on from `acc`, and time was not up at any
      count between them. */
  predicate Extends(acc: seq<DataPoint>, samples: seq<DataPoint>, records: seq<string>,
                    rateMs: int, durationCs: int)
  {
    && |acc| <= |samples| <= |acc| + |records|
    && samples[..|acc|] == acc
    && (forall i :: |acc| <= i < |samples| ==> samples[i].timeElapsed == Elapsed(i + 1, rateMs))
    && (forall i :: |acc| <= i < |samples| ==> samples[i].Fields() == ParseFields(records[i - |acc|]))
    && (forall k :: |acc| < k < |samples| ==> !TimeIsUp(k, rateMs, durationCs))
  }

  /** How a batch ended: the duration was covered, or every record was used
      and polling goes on. */
  datatype Progress = Covered(samples: seq<DataPoint>) | Drained(samples: seq<DataPoint>)

  /** The inner `for point in data_points` loop: each record becomes the next
      sample, and the stopping rule is applied after every append, so a batch
      can end mid-way, dropping the records after the stop. */
  function ConsumeBatch(records: seq<string>, acc: seq<DataPoint>, rateMs: int, durationCs: int)
    : (r: Result<Progress>)
    ensures r.Ok? ==> Extends(acc, r.value.samples, records, rateMs, durationCs)
    ensures r.Ok? && r.value.Covered? ==>
              |r.value.samples| > |acc| && TimeIsUp(|r.value.samples|, rateMs, durationCs)
    ensures r.Ok? && r.value.Drained? ==>
              && |r.value.samples| == |acc| + |records|
              && (|records| > 0 ==> !TimeIsUp(|r.value.samples|, rateMs, durationCs))
    ensures r.Err? <==> BatchFails(records, |acc|, rateMs, durationCs)
    ensures r.Err? ==> r.error == Type
    decreases |records|
  {
    if |records| == 0 then
      Ok(Drained(acc))
    else
      BatchFailsStep(records, |acc|, rateMs, durationCs);
      match MakePoint(Elapsed(|acc| + 1, rateMs), ParseFields(records[0]))
      case Err(e) => Err(e)
      case Ok(point) =>
        var grown := acc + [point];
        if TimeIsUp(|grown|, rateMs, durationCs) then
          Ok(Covered(grown))
        else
          var r := ConsumeBatch(records[1..], grown, rateMs, durationCs);
          GrowExtends(acc, grown, r, records, rateMs, durationCs);
          r
  }

  /** Some record that the loop reaches before time is up, counting on from
      `count` samples, does not give the twelve fields a sample needs. */
  predicate BatchFails(records: seq<string>, count: int, rateMs: int, durationCs: int) {
    exists j :: 0 <= j < |records| && BatchFailsAt(records, j, count, rateMs, durationCs)
  }

  /** Record `j` lacks twelve fields and time is not up before it is parsed. */
  predicate BatchFailsAt(records: seq<string>, j: int, count: int, rateMs: int, durationCs: int) {
    0 <= j < |records| && |ParseFields(records[j])| != 12 && NeverUp(count, count + j, rateMs, durationCs)
  }

  /** `BatchFails` one record at a time: the first record is malformed, or
      time is not up after it and a later record fails. */
  lemma BatchFailsStep(records: seq<string>, count: int, rateMs: int, durationCs: int)
    requires |records| > 0
    ensures BatchFails(records, count, rateMs, durationCs)
            <==> (|| |ParseFields(records[0])| != 12
                  || (!TimeIsUp(count + 1, rateMs, durationCs) && BatchFails(records[1..], count + 1, rateMs, durationCs)))
  {
    if BatchFails(records, count, rateMs, durationCs) && |ParseFields(records[0])| == 12 {
      var j :| 0 <= j < |records| && BatchFailsAt(records, j, count, rateMs, durationCs);
      BatchFailsLater(records, j, count, rateMs, durationCs);
    }
    if !TimeIsUp(count + 1, rateMs, durationCs) && BatchFails(records[1..], count + 1, rateMs, durationCs) {
      var j :| 0 <= j < |records[1..]| && BatchFailsAt(records[1..], j, count + 1, rateMs, durationCs);
      BatchFailsEarlier(records, j, count, rateMs, durationCs);
    }
    if |ParseFields(records[0])| != 12 {
      assert BatchFailsAt(records, 0, count, rateMs, durationCs);
    }
  }

  /** A failure past a well-formed first record is a failure of the rest. */
  lemma BatchFailsLater(records: seq<string>, j: int, count: int, rateMs: int, durationCs: int)
    requires BatchFailsAt(records, j, count, rateMs, durationCs) && |ParseFields(records[0])| == 12
    ensures !TimeIsUp(count + 1, rateMs, durationCs)
    ensures BatchFailsAt(records[1..], j - 1, count + 1, rateMs, durationCs)
  {
    assert records[1..][j - 1] == records[j];
  }

  /** A failure of the rest, reached in time, is a failure of the batch. */
  lemma BatchFailsEarlier(records: seq<string>, j: int, count: int, rateMs: int, durationCs: int)
    requires |records| > 0 && !TimeIsUp(count + 1, rateMs, durationCs)
    requires BatchFailsAt(records[1..], j, count + 1, rateMs, durationCs)
    ensures BatchFailsAt(records, j + 1, count, rateMs, durationCs)
  {
    assert records[j + 1] == records[1..][j];
  }

  /** A failing batch still fails with more records after it. */
  lemma BatchFailsLonger(records: seq<string>, later: seq<string>, count: int, rateMs: int, durationCs: int)
    requires BatchFails(records, count, rateMs, durationCs)
    ensures BatchFails(records + later, count, rateMs, durationCs)
  {
    var j :| 0 <= j < |records| && BatchFailsAt(records, j, count, rateMs, durationCs);
    assert (records + later)[j] == records[j];
    assert BatchFailsAt(records + later, j, count, rateMs, durationCs);
  }

  /** One appended sample followed by the rest of the batch extends `acc` by
      the whole batch. */
  lemma GrowExtends(acc: seq<DataPoint>, grown: seq<DataPoint>, r: Result<Progress>,
                    records: seq<string>, rateMs: int, durationCs: int)
    requires |records| > 0 && |grown| == |acc| + 1 && grown[..|acc|] == acc
    requires grown[|acc|].timeElapsed == Elapsed(|acc| + 1, rateMs)
    requires grown[|acc|].Fields() == ParseFields(records[0])
    requires !TimeIsUp(|grown|, rateMs, durationCs)
    requires r.Ok? ==> Extends(grown, r.value.samples, records[1..], rateMs, durationCs)
    ensures r.Ok? ==> Extends(acc, r.value.samples, records, rateMs, durationCs)
  {
    if r.Ok? {
      var s := r.value.samples;
      assert s[..|acc|] == s[..|grown|][..|acc|];
      forall i | |acc| <= i < |s|
        ensures s[i].Fields() == ParseFields(records[i - |acc|])
      {
        if i == |acc| {
          assert s[i] == s[..|grown|][i];
        } else {
          assert records[1..][i - |grown|] == records[i - |acc|];
        }
      }
      forall i | |acc| <= i < |s|
        ensures s[i].timeElapsed == Elapsed(i + 1, rateMs)
      {
        if i == |acc| {
          assert s[i] == s[..|grown|][i];
        }
      }
    }
  }

  // ---------------------------------------------------------------------------
  // The poll loop
  // ---------------------------------------------------------------------------

  /** `port` went to `p` by answering `polls` buffer fetches. */
  predicate Polled(port: Port, p: Port, polls: nat) {
    && polls <= |port.replies|
    && p.replies == port.replies[polls..]
    && p.written == port.written + Repeat(FetchLine, polls)
  }

  /** The `added`-th record to arrive came with the last of the first
      `polls` replies: the replies before it held fewer records. */
  predicate StopsAt(replies: seq<string>, polls: int, added: int) {
    && 0 < polls <= |replies|
    && |Arrivals(replies[..polls - 1])| < added <= |Arrivals(replies[..polls])|
  }

  /** What a finished poll loop promises: starting from `acc` at `port`, it
      produced `samples` from the records that arrived, stopped at the first
      count that covers the duration, and left the port at `p` right after
      the reply that brought the last sample's record. */
  predicate Covers(port: Port, acc: seq<DataPoint>, samples: seq<DataPoint>, p: Port,
                   rateMs: int, durationCs: int)
  {
    && Extends(acc, samples, Arrivals(port.replies), rateMs, durationCs)
    && |samples| > |acc|
    && TimeIsUp(|samples|, rateMs, durationCs)
    && 0 < |port.replies| - |p.replies|
    && Polled(port, p, |port.replies| - |p.replies|)
    && StopsAt(port.replies, |port.replies| - |p.replies|, |samples| - |acc|)
  }

  /** Every reply decodes as ASCII. */
  predicate AllAscii(replies: seq<string>) {
    forall i :: 0 <= i < |replies| ==> IsAscii(replies[i])
  }

  /** Why a poll loop that starts with `count` samples fails on this script,
      naming the first failure it meets: a record without twelve fields
      reached before time is up, in a reply that decodes after replies that
      decode; a reply that does not decode, reached before time is up and
      after replies whose records were all well-formed; or the end of the
      script, every reply decoding and every record well-formed, before time
      is up. At most one error fits a script (`PollFailsExclusive`). */
  predicate PollFails(replies: seq<string>, count: int, e: Error, rateMs: int, durationCs: int) {
    || (&& e == OutOfReplies && AllAscii(replies)
        && NeverUp(count, count + |Arrivals(replies)|, rateMs, durationCs)
        && !BatchFails(Arrivals(replies), count, rateMs, durationCs))
    || (e == UnicodeDecode && exists i :: 0 <= i < |replies| && DecodeFailsAt(replies, i, count, rateMs, durationCs))
    || (e == Type && exists i :: 0 <= i < |replies| && TypeFailsAt(replies, i, count, rateMs, durationCs))
  }

  /** Reply `i` is the first that does not decode, time is not up once the
      records of the replies before it are in, and none of those records
      failed before time was up. */
  predicate DecodeFailsAt(replies: seq<string>, i: int, count: int, rateMs: int, durationCs: int) {
    && 0 <= i < |replies| && !IsAscii(replies[i]) && AllAscii(replies[..i])
    && NeverUp(count, count + |Arrivals(replies[..i])|, rateMs, durationCs)
    && !BatchFails(Arrivals(replies[..i]), count, rateMs, durationCs)
  }

  /** Replies up to `i` decode and their records hold one without twelve
      fields, reached before time is up. */
  predicate TypeFailsAt(replies: seq<string>, i: int, count: int, rateMs: int, durationCs: int) {
    && 0 <= i < |replies| && AllAscii(replies[..i + 1])
    && BatchFails(Arrivals(replies[..i + 1]), count, rateMs, durationCs)
  }

  /** The three failures exclude one another: a script fails in one way. */
  lemma PollFailsExclusive(replies: seq<string>, count: int, e1: Error, e2: Error, rateMs: int, durationCs: int)
    requires PollFails(replies, count, e1, rateMs, durationCs)
    requires PollFails(replies, count, e2, rateMs, durationCs)
    ensures e1 == e2
  {
    if e1 == Type || e2 == Type {
      var i :| 0 <= i < |replies| && TypeFailsAt(replies, i, count, rateMs, durationCs);
      TypeExcludes(replies, i, count, rateMs, durationCs);
    }
  }

  /** A type failure at reply `i` rules out the other two failures. */
  lemma TypeExcludes(replies: seq<string>, i: int, count: int, rateMs: int, durationCs: int)
    requires TypeFailsAt(replies, i, count, rateMs, durationCs)
    ensures !PollFails(replies, count, OutOfReplies, rateMs, durationCs)
    ensures !PollFails(replies, count, UnicodeDecode, rateMs, durationCs)
  {
    PrefixFails(replies, i + 1, |replies|, count, rateMs, durationCs);
    assert replies[..|replies|] == replies;
    forall d | 0 <= d < |replies| && DecodeFailsAt(replies, d, count, rateMs, durationCs)
      ensures false
    {
      AsciiBefore(replies, i + 1, d);
      PrefixFails(replies, i + 1, d, count, rateMs, durationCs);
    }
  }

  /** Records failing within a prefix of the script still fail within a
      longer prefix. */
  lemma PrefixFails(replies: seq<string>, a: int, b: int, count: int, rateMs: int, durationCs: int)
    requires 0 <= a <= |replies| && 0 <= b <= |replies|
    ensures a <= b && BatchFails(Arrivals(replies[..a]), count, rateMs, durationCs)
            ==> BatchFails(Arrivals(replies[..b]), count, rateMs, durationCs)
  {
    if a <= b && BatchFails(Arrivals(replies[..a]), count, rateMs, durationCs) {
      ArrivalsSplit(replies, a, b);
      BatchFailsLonger(Arrivals(replies[..a]), Arrivals(replies[a..b]), count, rateMs, durationCs);
    }
  }

  /** A failure in a batch made of two stretches is a failure of the first,
      or of the second counted on from the end of the first. */
  lemma BatchFailsSplit(added: seq<string>, later: seq<string>, count: int, next: int,
                        rateMs: int, durationCs: int)
    requires next == count + |added|
    ensures BatchFails(added + later, count, rateMs, durationCs)
            ==> BatchFails(added, count, rateMs, durationCs) || BatchFails(later, next, rateMs, durationCs)
  {
    if BatchFails(added + later, count, rateMs, durationCs) {
      var j :| 0 <= j < |added + later| && BatchFailsAt(added + later, j, count, rateMs, durationCs);
      if j < |added| {
        assert (added + later)[j] == added[j];
        assert BatchFailsAt(added, j, count, rateMs, durationCs);
      } else {
        assert (added + later)[j] == later[j - |added|];
        assert BatchFailsAt(later, j - |added|, next, rateMs, durationCs);
      }
    }
  }

  /** The `while True` loop: fetch the buffer unchecked; a response without
      `;` is skipped; otherwise its records are consumed until the duration
      is covered. The loop ends with the samples once time is up, with the
      first error raised, or with `OutOfReplies` when the script runs out. */
  function PollLoop(port: Port, acc: seq<DataPoint>, rateMs: int, durationCs: int)
    : (r: Result<(seq<DataPoint>, Port)>)
    ensures r.Ok? ==> Covers(port, acc, r.value.0, r.value.1, rateMs, durationCs)
    ensures r.Err? ==> PollFails(port.replies, |acc|, r.error, rateMs, durationCs)
    decreases |port.replies|
  {
    FetchQueryAscii();
    match Query(port, FetchQuery, false)
    case Err(e) =>
      FirstFetchFails(port.replies, |acc|, rateMs, durationCs);
      Err(e)
    case Ok(fetched) =>
      var response := fetched.0;
      var next := fetched.1;
      if ';' !in response then
        var r := PollLoop(next, acc, rateMs, durationCs);
        SkipStep(port, acc, r, rateMs, durationCs);
        r
      else
        match ConsumeBatch(Records(response), acc, rateMs, durationCs)
        case Err(e) =>
          FirstBatchFails(port.replies, |acc|, rateMs, durationCs);
          Err(e)
        case Ok(Covered(samples)) =>
          CoveredStep(port, acc, samples, rateMs, durationCs);
          Ok((samples, next))
        case Ok(Drained(samples)) =>
          var r := PollLoop(next, samples, rateMs, durationCs);
          DrainedStep(port, acc, samples, r, rateMs, durationCs);
          r
  }

  /** The loop succeeds once the first `polls` replies decode, bring enough
      records for time to be up, and every record reached before that gives
      twelve fields; the replies after them are never read. */
  lemma PollLoopSucceeds(port: Port, acc: seq<DataPoint>, rateMs: int, durationCs: int, polls: int)
    requires 0 < polls <= |port.replies|
    requires AllAscii(port.replies[..polls])
    requires exists k :: |acc| < k <= |acc| + |Arrivals(port.replies[..polls])| && TimeIsUp(k, rateMs, durationCs)
    requires !BatchFails(Arrivals(port.replies[..polls]), |acc|, rateMs, durationCs)
    ensures PollLoop(port, acc, rateMs, durationCs).Ok?
  {
    var r := PollLoop(port, acc, rateMs, durationCs);
    if r.Err? {
      FailsBeyond(port.replies, polls, |acc|, r.error, rateMs, durationCs);
      assert false;
    }
  }

  /** A failure of a script whose first `polls` replies decode and bring
      only well-formed records happens after all of their records. */
  lemma FailsBeyond(all: seq<string>, polls: int, count: int, e: Error, rateMs: int, durationCs: int)
    requires 0 < polls <= |all| && AllAscii(all[..polls])
    requires !BatchFails(Arrivals(all[..polls]), count, rateMs, durationCs)
    requires PollFails(all, count, e, rateMs, durationCs)
    ensures NeverUp(count, count + |Arrivals(all[..polls])|, rateMs, durationCs)
  {
    if e == OutOfReplies {
      ArrivalsGrow(all, polls, |all|);
      assert all[..|all|] == all;
    } else if e == UnicodeDecode {
      DecodeAfterPrefix(all, polls, count, rateMs, durationCs);
    } else {
      var i :| 0 <= i < |all| && TypeFailsAt(all, i, count, rateMs, durationCs);
      TypeBeyond(all, polls, i, count, rateMs, durationCs);
    }
  }

  /** A type failure at reply `i` lies past the prefix's records when the
      prefix's records are all well-formed. */
  lemma TypeBeyond(all: seq<string>, polls: int, i: int, count: int, rateMs: int, durationCs: int)
    requires 0 < polls <= |all|
    requires !BatchFails(Arrivals(all[..polls]), count, rateMs, durationCs)
    requires TypeFailsAt(all, i, count, rateMs, durationCs)
    ensures NeverUp(count, count + |Arrivals(all[..polls])|, rateMs, durationCs)
  {
    if polls < i + 1 {
      FailsPastPrefix(all, polls, i + 1, count, rateMs, durationCs);
    } else {
      PrefixFails(all, i + 1, polls, count, rateMs, durationCs);
    }
  }

  /** Records failing within a longer prefix, when the shorter prefix's
      records are all well-formed, fail after them. */
  lemma FailsPastPrefix(all: seq<string>, a: int, b: int, count: int, rateMs: int, durationCs: int)
    requires 0 <= a <= |all| && 0 <= b <= |all|
    requires !BatchFails(Arrivals(all[..a]), count, rateMs, durationCs)
    ensures a < b && BatchFails(Arrivals(all[..b]), count, rateMs, durationCs)
            ==> NeverUp(count, count + |Arrivals(all[..a])|, rateMs, durationCs)
  {
    if a < b && BatchFails(Arrivals(all[..b]), count, rateMs, durationCs) {
      ArrivalsSplit(all, a, b);
      TypeAfterPrefix(Arrivals(all[..a]), Arrivals(all[a..b]), count, rateMs, durationCs);
    }
  }

  lemma DecodeAfterPrefix(all: seq<string>, polls: int, count: int, rateMs: int, durationCs: int)
    requires 0 < polls <= |all| && AllAscii(all[..polls])
    requires PollFails(all, count, UnicodeDecode, rateMs, durationCs)
    ensures NeverUp(count, count + |Arrivals(all[..polls])|, rateMs, durationCs)
  {
    var i :| 0 <= i < |all| && DecodeFailsAt(all, i, count, rateMs, durationCs);
    AsciiBefore(all, polls, i);
    ArrivalsGrow(all, polls, i);
  }

  /** A reply inside an all-decodable prefix decodes. */
  lemma AsciiBefore(all: seq<string>, polls: int, i: int)
    requires 0 <= i < |all| && 0 <= polls <= |all| && AllAscii(all[..polls])
    ensures i < polls ==> IsAscii(all[i])
  {
    if i < polls {
      assert all[..polls][i] == all[i];
    }
  }

  /** The records of a longer prefix: those of the shorter, then the rest. */
  lemma ArrivalsSplit(all: seq<string>, a: int, b: int)
    requires 0 <= a <= b <= |all|
    ensures Arrivals(all[..b]) == Arrivals(all[..a]) + Arrivals(all[a..b])
  {
    assert all[..b] == all[..a] + all[a..b];
    ArrivalsAppend(all[..a], all[a..b]);
  }

  /** A longer prefix of the script brings at least as many records. */
  lemma ArrivalsGrow(all: seq<string>, polls: int, i: int)
    requires 0 <= polls <= i <= |all|
    ensures |Arrivals(all[..polls])| <= |Arrivals(all[..i])|
  {
    ArrivalsSplit(all, polls, i);
  }

  /** A malformed record behind records that are all well-formed up to the
      stop lies beyond them. */
  lemma TypeAfterPrefix(pre: seq<string>, later: seq<string>, count: int, rateMs: int, durationCs: int)
    requires !BatchFails(pre, count, rateMs, durationCs)
    requires BatchFails(pre + later, count, rateMs, durationCs)
    ensures NeverUp(count, count + |pre|, rateMs, durationCs)
  {
    var j :| 0 <= j < |pre + later| && BatchFailsAt(pre + later, j, count, rateMs, durationCs);
    FailureInPrefix(pre, later, j, count, rateMs, durationCs);
  }

  /** A failing record inside the prefix is a failure of the prefix. */
  lemma FailureInPrefix(pre: seq<string>, later: seq<string>, j: int, count: int, rateMs: int, durationCs: int)
    requires BatchFailsAt(pre + later, j, count, rateMs, durationCs)
    ensures j < |pre| ==> BatchFailsAt(pre, j, count, rateMs, durationCs)
  {
    if j < |pre| {
      assert (pre + later)[j] == pre[j];
    }
  }

  /** A fetch that fails at once: no reply left, or one that does not decode. */
  lemma FirstFetchFails(replies: seq<string>, count: int, rateMs: int, durationCs: int)
    ensures |replies| == 0 ==> PollFails(replies, count, OutOfReplies, rateMs, durationCs)
    ensures |replies| > 0 && !IsAscii(replies[0]) ==> PollFails(replies, count, UnicodeDecode, rateMs, durationCs)
  {
    assert Arrivals(replies[..0]) == [] by {
      assert replies[..0] == [];
    }
    if |replies| > 0 && !IsAscii(replies[0]) {
      assert DecodeFailsAt(replies, 0, count, rateMs, durationCs);
    }
  }

  /** A malformed record in the first response, reached in time, is a type
      failure at the first reply. */
  lemma FirstBatchFails(replies: seq<string>, count: int, rateMs: int, durationCs: int)
    requires |replies| > 0 && IsAscii(replies[0]) && ';' in RStrip(replies[0])
    requires BatchFails(Records(RStrip(replies[0])), count, rateMs, durationCs)
    ensures PollFails(replies, count, Type, rateMs, durationCs)
  {
    BatchArrived(RStrip(replies[0]));
    ArrivalsPrefix(replies, 1);
    assert Arrivals(replies[..1]) == Records(RStrip(replies[0])) by {
      assert replies[1..][..0] == [];
    }
    assert replies[..1][0] == replies[0];
    assert TypeFailsAt(replies, 0, count, rateMs, durationCs);
  }

  /** A failure later in the script is a failure of the whole script, when
      the first reply decoded and its records neither failed nor stopped the
      loop. */
  lemma FailStep(replies: seq<string>, count: int, added: seq<string>, next: int, e: Error,
                 rateMs: int, durationCs: int)
    requires |replies| > 0 && IsAscii(replies[0]) && added == Arrived(RStrip(replies[0]))
    requires next == count + |added|
    requires NeverUp(count, next, rateMs, durationCs)
    requires !BatchFails(added, count, rateMs, durationCs)
    requires PollFails(replies[1..], next, e, rateMs, durationCs)
    ensures PollFails(replies, count, e, rateMs, durationCs)
  {
    ArrivalsCons(replies);
    if e == OutOfReplies {
      OutOfRepliesStep(replies, count, added, next, rateMs, durationCs);
    } else if e == UnicodeDecode {
      DecodeStep(replies, count, added, next, rateMs, durationCs);
    } else {
      var i :| 0 <= i < |replies[1..]| && TypeFailsAt(replies[1..], i, next, rateMs, durationCs);
      TypeStep(replies, i, count, added, next, rateMs, durationCs);
    }
  }

  /** The records of a script: those of its first reply, then the rest. */
  lemma ArrivalsCons(replies: seq<string>)
    requires |replies| > 0
    ensures Arrivals(replies) == Arrived(RStrip(replies[0])) + Arrivals(replies[1..])
  {
  }

  /** A decodable reply in front of decodable replies. */
  lemma AllAsciiCons(first: string, rest: seq<string>)
    requires IsAscii(first) && AllAscii(rest)
    ensures AllAscii([first] + rest)
  {
    assert forall i :: 1 <= i < |rest| + 1 ==> ([first] + rest)[i] == rest[i - 1];
  }

  lemma OutOfRepliesStep(replies: seq<string>, count: int, added: seq<string>, next: int,
                         rateMs: int, durationCs: int)
    requires |replies| > 0 && IsAscii(replies[0]) && AllAscii(replies[1..])
    requires Arrivals(replies) == added + Arrivals(replies[1..]) && next == count + |added|
    requires NeverUp(count, next, rateMs, durationCs)
    requires NeverUp(next, next + |Arrivals(replies[1..])|, rateMs, durationCs)
    requires !BatchFails(added, count, rateMs, durationCs)
    requires !BatchFails(Arrivals(replies[1..]), next, rateMs, durationCs)
    ensures AllAscii(replies) && NeverUp(count, count + |Arrivals(replies)|, rateMs, durationCs)
    ensures !BatchFails(Arrivals(replies), count, rateMs, durationCs)
  {
    BatchFailsSplit(added, Arrivals(replies[1..]), count, next, rateMs, durationCs);
    AllAsciiCons(replies[0], replies[1..]);
    assert [replies[0]] + replies[1..] == replies;
    NeverUpJoin(count, next, count + |Arrivals(replies)|, rateMs, durationCs);
  }

  lemma DecodeStep(replies: seq<string>, count: int, added: seq<string>, next: int,
                   rateMs: int, durationCs: int)
    requires |replies| > 0 && IsAscii(replies[0]) && added == Arrived(RStrip(replies[0]))
    requires next == count + |added|
    requires NeverUp(count, next, rateMs, durationCs)
    requires !BatchFails(added, count, rateMs, durationCs)
    requires PollFails(replies[1..], next, UnicodeDecode, rateMs, durationCs)
    ensures PollFails(replies, count, UnicodeDecode, rateMs, durationCs)
  {
    var i :| 0 <= i < |replies[1..]| && DecodeFailsAt(replies[1..], i, next, rateMs, durationCs);
    DecodeAtStep(replies, i, count, added, next, rateMs, durationCs);
  }

  /** The first undecodable reply after a decodable one that brought
      `added` records moves one place on. */
  lemma DecodeAtStep(replies: seq<string>, i: int, count: int, added: seq<string>, next: int,
                     rateMs: int, durationCs: int)
    requires 0 <= i < |replies| - 1 && IsAscii(replies[0]) && added == Arrived(RStrip(replies[0]))
    requires next == count + |added|
    requires NeverUp(count, next, rateMs, durationCs)
    requires !BatchFails(added, count, rateMs, durationCs)
    requires DecodeFailsAt(replies[1..], i, next, rateMs, durationCs)
    ensures DecodeFailsAt(replies, i + 1, count, rateMs, durationCs)
  {
    ArrivalsPrefix(replies, i + 1);
    BatchFailsSplit(added, Arrivals(replies[1..][..i]), count, next, rateMs, durationCs);
    NeverUpJoin(count, next, count + |Arrivals(replies[..i + 1])|, rateMs, durationCs);
    AsciiPrefixCons(replies, i);
    assert replies[i + 1] == replies[1..][i];
  }

  /** A decodable reply in front of a decodable prefix of the rest. */
  lemma AsciiPrefixCons(replies: seq<string>, i: int)
    requires 0 <= i < |replies| && IsAscii(replies[0]) && AllAscii(replies[1..][..i])
    ensures AllAscii(replies[..i + 1])
  {
    AllAsciiCons(replies[0], replies[1..][..i]);
    assert [replies[0]] + replies[1..][..i] == replies[..i + 1];
  }

  /** A type failure at reply `i` of the rest is one at reply `i + 1` of the
      script, when the first reply decoded and did not stop the loop. */
  lemma TypeStep(replies: seq<string>, i: int, count: int, added: seq<string>, next: int,
                 rateMs: int, durationCs: int)
    requires |replies| > 0 && IsAscii(replies[0]) && added == Arrived(RStrip(replies[0]))
    requires next == count + |added|
    requires NeverUp(count, next, rateMs, durationCs)
    requires 0 <= i < |replies[1..]| && TypeFailsAt(replies[1..], i, next, rateMs, durationCs)
    ensures TypeFailsAt(replies, i + 1, count, rateMs, durationCs)
  {
    AsciiPrefixCons(replies, i + 1);
    ArrivalsPrefix(replies, i + 2);
    BatchFailsBehind(added, Arrivals(replies[1..][..i + 1]), count, next, rateMs, durationCs);
  }

  /** A failure behind a batch that did not stop the loop is a failure of
      both together. */
  lemma BatchFailsBehind(added: seq<string>, later: seq<string>, count: int, next: int, rateMs: int, durationCs: int)
    requires next == count + |added|
    requires NeverUp(count, next, rateMs, durationCs)
    requires BatchFails(later, next, rateMs, durationCs)
    ensures BatchFails(added + later, count, rateMs, durationCs)
  {
    var j :| 0 <= j < |later| && BatchFailsAt(later, j, next, rateMs, durationCs);
    assert (added + later)[|added| + j] == later[j];
    NeverUpJoin(count, next, next + j, rateMs, durationCs);
    assert BatchFailsAt(added + later, |added| + j, count, rateMs, durationCs);
  }

  /** The port after one unchecked fetch. */
  function Fetched(port: Port): Port
    requires |port.replies| > 0
  {
    Port(port.replies[1..], port.written + [FetchLine])
  }

  lemma ArrivalsStep(port: Port)
    requires |port.replies| > 0
    ensures Arrivals(port.replies) == Arrived(RStrip(port.replies[0])) + Arrivals(Fetched(port).replies)
  {
  }

  /** One more fetch in front of a polled run is still a polled run. */
  lemma PolledStep(port: Port, p: Port)
    requires |port.replies| > 0
    requires 0 < |Fetched(port).replies| - |p.replies|
    requires Polled(Fetched(port), p, |Fetched(port).replies| - |p.replies|)
    ensures 0 < |port.replies| - |p.replies| && Polled(port, p, |port.replies| - |p.replies|)
  {
    var polls := |Fetched(port).replies| - |p.replies|;
    assert Repeat(FetchLine, polls + 1) == [FetchLine] + Repeat(FetchLine, polls);
    assert port.replies[1..][polls..] == port.replies[polls + 1..];
  }

  /** One more reply in front moves the stopping reply one place on. */
  lemma StopsAtStep(replies: seq<string>, polls: int, added: int, first: seq<string>)
    requires |replies| > 0 && first == Arrived(RStrip(replies[0]))
    requires StopsAt(replies[1..], polls, added)
    ensures StopsAt(replies, polls + 1, added + |first|)
  {
    ArrivalsPrefix(replies, polls);
    ArrivalsPrefix(replies, polls + 1);
  }

  /** A skipped response: the rest of the loop's promise carries over. */
  lemma SkipStep(port: Port, acc: seq<DataPoint>, r: Result<(seq<DataPoint>, Port)>,
                 rateMs: int, durationCs: int)
    requires |port.replies| > 0 && IsAscii(port.replies[0]) && ';' !in RStrip(port.replies[0])
    requires r.Ok? ==> Covers(Fetched(port), acc, r.value.0, r.value.1, rateMs, durationCs)
    requires r.Err? ==> PollFails(Fetched(port).replies, |acc|, r.error, rateMs, durationCs)
    ensures r.Ok? ==> Covers(port, acc, r.value.0, r.value.1, rateMs, durationCs)
    ensures r.Err? ==> PollFails(port.replies, |acc|, r.error, rateMs, durationCs)
  {
    if r.Ok? {
      ArrivalsStep(port);
      assert Arrivals(port.replies) == Arrivals(Fetched(port).replies);
      PolledStep(port, r.value.1);
      StopsAtStep(port.replies, |Fetched(port).replies| - |r.value.1.replies|, |r.value.0| - |acc|, []);
    } else {
      SkippedFails(port.replies, |acc|, r.error, rateMs, durationCs);
    }
  }

  /** A batch that covers the duration ends the loop after this fetch. */
  lemma CoveredStep(port: Port, acc: seq<DataPoint>, samples: seq<DataPoint>,
                    rateMs: int, durationCs: int)
    requires |port.replies| > 0 && ';' in RStrip(port.replies[0])
    requires Extends(acc, samples, Records(RStrip(port.replies[0])), rateMs, durationCs)
    requires |samples| > |acc| && TimeIsUp(|samples|, rateMs, durationCs)
    ensures Covers(port, acc, samples, Fetched(port), rateMs, durationCs)
  {
    ArrivalsStep(port);
    ExtendsLonger(acc, samples, Records(RStrip(port.replies[0])), Arrivals(Fetched(port).replies),
                  rateMs, durationCs);
    assert Repeat(FetchLine, 1) == [FetchLine];
    ArrivalsPrefix(port.replies, 1);
    assert port.replies[1..][..0] == [] && port.replies[..0] == [];
  }

  /** A skipped response in front of a failing rest of the loop. */
  lemma SkippedFails(replies: seq<string>, count: int, e: Error, rateMs: int, durationCs: int)
    requires |replies| > 0 && IsAscii(replies[0]) && ';' !in RStrip(replies[0])
    requires PollFails(replies[1..], count, e, rateMs, durationCs)
    ensures PollFails(replies, count, e, rateMs, durationCs)
  {
    FailStep(replies, count, [], count, e, rateMs, durationCs);
  }

  /** A drained batch followed by the rest of the loop. */
  lemma DrainedStep(port: Port, acc: seq<DataPoint>, mid: seq<DataPoint>,
                    r: Result<(seq<DataPoint>, Port)>, rateMs: int, durationCs: int)
    requires |port.replies| > 0 && ';' in RStrip(port.replies[0])
    requires var records := Records(RStrip(port.replies[0]));
             && Extends(acc, mid, records, rateMs, durationCs)
             && |mid| == |acc| + |records|
             && (|records| > 0 ==> !TimeIsUp(|mid|, rateMs, durationCs))
             && !BatchFails(records, |acc|, rateMs, durationCs)
    requires IsAscii(port.replies[0])
    requires r.Ok? ==> Covers(Fetched(port), mid, r.value.0, r.value.1, rateMs, durationCs)
    requires r.Err? ==> PollFails(Fetched(port).replies, |mid|, r.error, rateMs, durationCs)
    ensures r.Ok? ==> Covers(port, acc, r.value.0, r.value.1, rateMs, durationCs)
    ensures r.Err? ==> PollFails(port.replies, |acc|, r.error, rateMs, durationCs)
  {
    if r.Ok? {
      DrainedCovers(port, acc, mid, r.value.0, r.value.1, rateMs, durationCs);
    }
    DrainedNeverUp(acc, mid, Records(RStrip(port.replies[0])), rateMs, durationCs);
    DrainedErr(port.replies, |acc|, |mid|, r, rateMs, durationCs);
  }

  lemma DrainedErr(replies: seq<string>, count: int, mid: int,
                   r: Result<(seq<DataPoint>, Port)>, rateMs: int, durationCs: int)
    requires |replies| > 0 && ';' in RStrip(replies[0]) && IsAscii(replies[0])
    requires mid == count + |Records(RStrip(replies[0]))|
    requires NeverUp(count, mid, rateMs, durationCs)
    requires !BatchFails(Records(RStrip(replies[0])), count, rateMs, durationCs)
    requires r.Err? ==> PollFails(replies[1..], mid, r.error, rateMs, durationCs)
    ensures r.Err? ==> PollFails(replies, count, r.error, rateMs, durationCs)
  {
    if r.Err? {
      BatchArrived(RStrip(replies[0]));
      FailStep(replies, count, Records(RStrip(replies[0])), mid, r.error, rateMs, durationCs);
    }
  }

  /** A drained batch did not stop at any of its counts. */
  lemma DrainedNeverUp(acc: seq<DataPoint>, mid: seq<DataPoint>, records: seq<string>,
                       rateMs: int, durationCs: int)
    requires Extends(acc, mid, records, rateMs, durationCs) && |mid| == |acc| + |records|
    requires |records| > 0 ==> !TimeIsUp(|mid|, rateMs, durationCs)
    ensures NeverUp(|acc|, |acc| + |records|, rateMs, durationCs)
  {
  }

  lemma DrainedCovers(port: Port, acc: seq<DataPoint>, mid: seq<DataPoint>, s: seq<DataPoint>, p: Port,
                      rateMs: int, durationCs: int)
    requires |port.replies| > 0 && ';' in RStrip(port.replies[0])
    requires var records := Records(RStrip(port.replies[0]));
             && Extends(acc, mid, records, rateMs, durationCs)
             && |mid| == |acc| + |records|
             && (|records| > 0 ==> !TimeIsUp(|mid|, rateMs, durationCs))
    requires Covers(Fetched(port), mid, s, p, rateMs, durationCs)
    ensures Covers(port, acc, s, p, rateMs, durationCs)
  {
    var records := Records(RStrip(port.replies[0]));
    ArrivalsStep(port);
    ChainBatches(acc, mid, s, records, Arrivals(Fetched(port).replies), rateMs, durationCs);
    PolledStep(port, p);
    StopsAtStep(port.replies, |Fetched(port).replies| - |p.replies|, |s| - |mid|, records);
  }

  /** Records added after the ones consumed do not disturb an extension. */
  lemma ExtendsLonger(acc: seq<DataPoint>, samples: seq<DataPoint>, records: seq<string>,
                      later: seq<string>, rateMs: int, durationCs: int)
    requires Extends(acc, samples, records, rateMs, durationCs)
    ensures Extends(acc, samples, records + later, rateMs, durationCs)
  {
    assert forall i :: 0 <= i < |records| ==> (records + later)[i] == records[i];
  }

  /** A drained batch followed by more samples extends `acc` by all the
      records, the batch's first. */
  lemma ChainBatches(acc: seq<DataPoint>, mid: seq<DataPoint>, s: seq<DataPoint>,
                     records: seq<string>, later: seq<string>, rateMs: int, durationCs: int)
    requires Extends(acc, mid, records, rateMs, durationCs) && |mid| == |acc| + |records|
    requires |records| > 0 ==> !TimeIsUp(|mid|, rateMs, durationCs)
    requires Extends(mid, s, later, rateMs, durationCs) && |s| > |mid|
    ensures Extends(acc, s, records + later, rateMs, durationCs)
  {
    assert s[..|acc|] == s[..|mid|][..|acc|];
    forall i | |acc| <= i < |s|
      ensures s[i].timeElapsed == Elapsed(i + 1, rateMs)
      ensures s[i].Fields() == ParseFields((records + later)[i - |acc|])
    {
      if i < |mid| {
        assert s[i] == s[..|mid|][i] == mid[i];
      }
    }
  }

  /** A response without `;` adds nothing: the loop goes on with the same
      samples, one fetch further. */
  lemma EmptyBatchSkipped(reply: string, rest: seq<string>, written: seq<string>,
                          acc: seq<DataPoint>, rateMs: int, durationCs: int)
    requires IsAscii(reply) && ';' !in RStrip(reply)
    ensures PollLoop(Port([reply] + rest, written), acc, rateMs, durationCs)
            == PollLoop(Port(rest, written + [FetchLine]), acc, rateMs, durationCs)
  {
    assert ([reply] + rest)[1..] == rest;
  }

  // ---------------------------------------------------------------------------
  // The session
  // ---------------------------------------------------------------------------

  /** The averaging-count command for an explicit interval: `rate / 10`. */
  function CountCommand(rateMs: int): string {
    CountCommandPrefix + TenthsText(rateMs)
  }

  /** The line the configuration step writes. */
  function ConfigureLine(rateMs: Option<int>): string {
    match rateMs
    case Some(ms) => CountCommand(ms) + ErrorQuery + ErrorQuery + "\n"
    case None => CountQuery + ErrorQuery + "\n"
  }

  /** The averaging count read back, when the reply to the checked count
      query holds one. */
  function CountReadBack(reply: string): Result<int> {
    ParseInt(RStrip(RemoveAll(reply, NoErrorEntry)))
  }

  /** Whether the configuration step succeeds on this first reply. */
  predicate ConfigureAccepts(reply: string, rateMs: Option<int>) {
    && IsAscii(reply) && reply != "" && Contains(reply, NoErrorText)
    && (rateMs.Some? ==> AcknowledgedTwice(reply))
    && (rateMs.None? ==> CountReadBack(reply).Ok?)
  }

  /** The rendered count command is ASCII, so it can always be sent. */
  lemma CountCommandAscii(rateMs: int)
    ensures IsAscii(CountCommand(rateMs))
  {
    var m := if rateMs < 0 then -rateMs else rateMs;
    var sign := if rateMs < 0 then "-" else "";
    var text := sign + NatToString(m / 10) + "." + [DigitChar(m % 10)];
    AsciiAppend(sign, NatToString(m / 10));
    AsciiAppend(sign + NatToString(m / 10), ".");
    AsciiAppend(sign + NatToString(m / 10) + ".", [DigitChar(m % 10)]);
    AsciiAppend(CountCommandPrefix, text);
  }

  /** Sample-interval setup: an explicit interval is sent as a checked
      averaging-count command carrying `rate / 10`; otherwise the count is
      queried and the interval is ten times the integer read back. */
  function Configure(port: Port, rateMs: Option<int>): (r: Result<(int, Port)>)
    ensures r.Ok? <==> |port.replies| > 0 && ConfigureAccepts(port.replies[0], rateMs)
    ensures r.Ok? ==> r.value.1 == Port(port.replies[1..], port.written + [ConfigureLine(rateMs)])
    ensures r.Ok? && rateMs.Some? ==> r.value.0 == rateMs.value
    ensures r.Ok? && rateMs.None? ==> r.value.0 == 10 * CountReadBack(port.replies[0]).value
    ensures r.Err? ==> r.error == ConfigureError(port, rateMs)
  {
    match rateMs
    case Some(ms) => SetCount(port, ms)
    case None => ReadCount(port)
  }

  /** The error a failing setup raises: that of the checked count command,
      or that of the count read-back. */
  function ConfigureError(port: Port, rateMs: Option<int>): Error {
    match rateMs
    case Some(ms) => CheckedCommandError(port, CountCommand(ms))
    case None => ReadCountError(port)
  }

  /** The error a failing count read-back raises, in the order the code
      meets the failures: running out of replies, decoding the reply, the
      error check, and `int()` on the cleaned reply. The query itself is
      ASCII, so it cannot fail to encode. */
  function ReadCountError(port: Port): Error {
    if |port.replies| == 0 then OutOfReplies
    else if !IsAscii(port.replies[0]) then UnicodeDecode
    else
      match ErrorCheck(port.replies[0])
      case Err(e) => e
      case Ok(_) => Value
  }

  /** The explicit-interval branch of `Configure`. */
  function SetCount(port: Port, rateMs: int): (r: Result<(int, Port)>)
    ensures r.Ok? <==> |port.replies| > 0 && ConfigureAccepts(port.replies[0], Some(rateMs))
    ensures r.Ok? ==> r.value == (rateMs, Port(port.replies[1..], port.written + [ConfigureLine(Some(rateMs))]))
    ensures r.Err? ==> r.error == CheckedCommandError(port, CountCommand(rateMs))
  {
    CountCommandAscii(rateMs);
    var p :- Command(port, CountCommand(rateMs), true);
    Ok((rateMs, p))
  }

  /** The count query can always be sent. */
  lemma CountQueryAscii()
    ensures IsAscii(CountQuery)
  {
  }

  /** The read-back branch of `Configure`. */
  function ReadCount(port: Port): (r: Result<(int, Port)>)
    ensures r.Ok? <==> |port.replies| > 0 && ConfigureAccepts(port.replies[0], None)
    ensures r.Ok? ==> r.value == (10 * CountReadBack(port.replies[0]).value,
                                  Port(port.replies[1..], port.written + [ConfigureLine(None)]))
    ensures r.Err? ==> r.error == ReadCountError(port)
  {
    CountQueryAnswer(port);
    match Query(port, CountQuery, true)
    case Err(e) => Err(e)
    case Ok(answered) =>
      match ParseInt(answered.0)
      case Err(e) => Err(e)
      case Ok(count) => Ok((10 * count, answered.1))
  }

  /** The checked count query answers with the cleaned first reply exactly
      when that reply passes the error check. */
  lemma CountQueryAnswer(port: Port)
    ensures Query(port, CountQuery, true).Ok?
            <==> && |port.replies| > 0 && IsAscii(port.replies[0])
                 && port.replies[0] != "" && Contains(port.replies[0], NoErrorText)
    ensures Query(port, CountQuery, true).Ok? ==>
              Query(port, CountQuery, true).value
              == (RStrip(RemoveAll(port.replies[0], NoErrorEntry)),
                  Port(port.replies[1..], port.written + [ConfigureLine(None)]))
    ensures Query(port, CountQuery, true).Err? ==> Query(port, CountQuery, true).error == ReadCountError(port)
    ensures Query(port, CountQuery, true).Ok? ==>
              && ReadCountError(port) == Value
              && ParseInt(Query(port, CountQuery, true).value.0) == CountReadBack(port.replies[0])
              && (ConfigureAccepts(port.replies[0], None) <==> CountReadBack(port.replies[0]).Ok?)
  {
    CountQueryAscii();
  }

  /** A count read back behind a separator control, such as `\x1c5`, is
      refused as `int()` refuses it, although the reply passes the error
      check and right-stripping keeps the separator. */
  lemma SeparatorCountRejected(c: char, digits: string, rest: seq<string>, written: seq<string>)
    requires 28 <= c as int <= 31 && |digits| > 0 && AllDigits(digits)
    ensures ReadCount(Port([[c] + digits + NoErrorEntry + "\n"] + rest, written)) == Err(Value)
  {
    var payload := [c] + digits;
    CountQueryAscii();
    SeparatorPayload(c, digits);
    CheckedQueryReturnsPayload(payload, "\n", CountQuery, rest, written);
    ParseIntRejectsSeparator(c, digits);
  }

  /** A count reply holding nothing but the success entry passes the error
      check and leaves an empty count, which `int()` refuses. */
  lemma LoneEntryCountRejected(rest: seq<string>, written: seq<string>)
    ensures ReadCount(Port([NoErrorEntry + "\n"] + rest, written)) == Err(Value)
  {
    CountQueryAscii();
    NoErrorEntryShape();
    assert "" + NoErrorEntry + "\n" == NoErrorEntry + "\n";
    assert IsAscii("\n") && IsSpace("\n"[0]);
    MissingFirstChar("", NoErrorEntry);
    CheckedQueryReturnsPayload("", "\n", CountQuery, rest, written);
    assert !IsNumeral(IntStrip(""));
  }

  /** Facts about `[c] + digits` as a reply payload. */
  lemma SeparatorPayload(c: char, digits: string)
    requires 28 <= c as int <= 31 && |digits| > 0 && AllDigits(digits)
    ensures IsAscii([c] + digits) && !Contains([c] + digits, NoErrorEntry)
    ensures RStrip([c] + digits) == [c] + digits
  {
    var payload := [c] + digits;
    SeparatorPayloadBelow(c, digits);
    assert NoErrorEntry[0] as int == 59;
    MissingFirstChar(payload, NoErrorEntry);
    assert payload[|payload| - 1] == digits[|digits| - 1];
  }

  /** Every character of `[c] + digits` lies below `:`. */
  lemma SeparatorPayloadBelow(c: char, digits: string)
    requires 28 <= c as int <= 31 && AllDigits(digits)
    ensures forall i :: 0 <= i < |[c] + digits| ==> ([c] + digits)[i] as int < 58
  {
    forall i | 0 <= i < |[c] + digits|
      ensures ([c] + digits)[i] as int < 58
    {
      if i > 0 {
        assert ([c] + digits)[i] == digits[i - 1];
      }
    }
  }

  /** `get_buffered_data`: configure, flush the buffer with one unchecked
      fetch whose content is discarded, then poll from an empty sample list. */
  function GetBufferedData(port: Port, durationCs: int, rateMs: Option<int>)
    : (r: Result<(seq<DataPoint>, Port)>)
    ensures r.Ok? ==> |port.replies| >= 3 && Configure(port, rateMs).Ok?
    ensures r.Ok? ==> Covers(AfterFlush(port, rateMs), [], r.value.0, r.value.1,
                             Configure(port, rateMs).value.0, durationCs)
    ensures r.Ok? ==>
              var polls := |port.replies| - |r.value.1.replies| - 1;
              && 2 <= polls
              && r.value.1.replies == port.replies[polls + 1..]
              && r.value.1.written == port.written + [ConfigureLine(rateMs)] + Repeat(FetchLine, polls)
    ensures Configure(port, rateMs).Err? ==> r == Err(ConfigureError(port, rateMs))
    ensures Configure(port, rateMs).Ok? && |port.replies| == 1 ==> r == Err(OutOfReplies)
    ensures Configure(port, rateMs).Ok? && |port.replies| >= 2 && !IsAscii(port.replies[1]) ==>
              r == Err(UnicodeDecode)
  {
    var configured :- Configure(port, rateMs);
    ConfigureMovesOn(port, rateMs);
    var r := FlushAndPoll(configured.1, configured.0, durationCs);
    SessionLog(port, configured.1, r, rateMs, configured.0, durationCs);
    r
  }

  /** A successful setup consumes exactly the first reply. */
  lemma ConfigureMovesOn(port: Port, rateMs: Option<int>)
    requires Configure(port, rateMs).Ok?
    ensures |port.replies| > 0 && Configure(port, rateMs).value.1.replies == port.replies[1..]
  {
  }

  /** What follows configuration: one unchecked fetch whose content is
      discarded, then the poll loop from an empty sample list. */
  function FlushAndPoll(port: Port, rateMs: int, durationCs: int): (r: Result<(seq<DataPoint>, Port)>)
    ensures r.Ok? ==> |port.replies| > 0 && Covers(Fetched(port), [], r.value.0, r.value.1, rateMs, durationCs)
    ensures |port.replies| == 0 ==> r == Err(OutOfReplies)
    ensures |port.replies| > 0 && !IsAscii(port.replies[0]) ==> r == Err(UnicodeDecode)
    ensures |port.replies| > 0 && IsAscii(port.replies[0]) && r.Err? ==>
              PollFails(port.replies[1..], 0, r.error, rateMs, durationCs)
  {
    FetchQueryAscii();
    var flushed :- Query(port, FetchQuery, false);
    PollLoop(flushed.1, [], rateMs, durationCs)
  }

  /** The port once configuration and the flush have each used one reply. */
  function AfterFlush(port: Port, rateMs: Option<int>): Port
    requires |port.replies| >= 2
  {
    Port(port.replies[2..], port.written + [ConfigureLine(rateMs), FetchLine])
  }

  /** A session's promise, from the promise of what follows configuration:
      the written log is the configuration line and one fetch per reply
      after the first. */
  lemma SessionLog(port: Port, configured: Port, r: Result<(seq<DataPoint>, Port)>,
                   rateMs: Option<int>, rate: int, durationCs: int)
    requires |port.replies| > 0
    requires configured == Port(port.replies[1..], port.written + [ConfigureLine(rateMs)])
    requires r.Ok? ==> |configured.replies| > 0
                       && Covers(Fetched(configured), [], r.value.0, r.value.1, rate, durationCs)
    ensures r.Ok? ==> |port.replies| >= 3
    ensures r.Ok? ==> Covers(AfterFlush(port, rateMs), [], r.value.0, r.value.1, rate, durationCs)
    ensures r.Ok? ==>
              var polls := |port.replies| - |r.value.1.replies| - 1;
              && 2 <= polls
              && r.value.1.replies == port.replies[polls + 1..]
              && r.value.1.written == port.written + [ConfigureLine(rateMs)] + Repeat(FetchLine, polls)
  {
    if r.Ok? {
      assert port.replies[2..] == port.replies[1..][1..];
      assert Fetched(configured) == AfterFlush(port, rateMs);
      var flushed := AfterFlush(port, rateMs);
      var k := |flushed.replies| - |r.value.1.replies|;
      assert Polled(flushed, r.value.1, k);
      assert Repeat(FetchLine, k + 1) == [FetchLine] + Repeat(FetchLine, k);
      assert port.replies[2..][k..] == port.replies[k + 2..];
    }
  }

  // ---------------------------------------------------------------------------
  // Session properties
  // ---------------------------------------------------------------------------

  /** The session stops at the first count that covers the duration: never
      before it, and with a positive interval exactly at
      `LeastSampleCount`. */
  lemma SessionStopsAtLeastCount(port: Port, durationCs: int, rateMs: Option<int>)
    requires GetBufferedData(port, durationCs, rateMs).Ok?
    ensures var rate := Configure(port, rateMs).value.0;
            var n := |GetBufferedData(port, durationCs, rateMs).value.0|;
            && (forall k :: 0 < k < n ==> !TimeIsUp(k, rate, durationCs))
            && (rate > 0 ==> n == LeastSampleCount(rate, durationCs))
  {
    var rate := Configure(port, rateMs).value.0;
    var n := |GetBufferedData(port, durationCs, rateMs).value.0|;
    if rate > 0 {
      OnlyLeastSampleCountStops(n, rate, durationCs);
    }
  }

  /** The `n`-th sample of a session (1-based) is stamped `n * rate / 1000`
      and comes from the `n`-th record to arrive after the flush. */
  lemma SessionSamples(port: Port, durationCs: int, rateMs: Option<int>, i: int)
    requires GetBufferedData(port, durationCs, rateMs).Ok?
    requires 0 <= i < |GetBufferedData(port, durationCs, rateMs).value.0|
    ensures var rate := Configure(port, rateMs).value.0;
            var s := GetBufferedData(port, durationCs, rateMs).value.0;
            && i < |Arrivals(port.replies[2..])|
            && s[i].timeElapsed == Elapsed(i + 1, rate)
            && s[i].Fields() == ParseFields(Arrivals(port.replies[2..])[i])
  {
    var rate := Configure(port, rateMs).value.0;
    var r := GetBufferedData(port, durationCs, rateMs);
    var flushed := AfterFlush(port, rateMs);
    assert Covers(flushed, [], r.value.0, r.value.1, rate, durationCs);
    assert Extends([], r.value.0, Arrivals(flushed.replies), rate, durationCs);
  }

  /** Consecutive samples of a session are one interval apart, whether or
      not a batch boundary falls between them. */
  lemma SampleSpacing(port: Port, durationCs: int, rateMs: Option<int>, i: int)
    requires GetBufferedData(port, durationCs, rateMs).Ok?
    requires 0 <= i < |GetBufferedData(port, durationCs, rateMs).value.0| - 1
    ensures var rate := Configure(port, rateMs).value.0;
            var s := GetBufferedData(port, durationCs, rateMs).value.0;
            s[i + 1].timeElapsed - s[i].timeElapsed == rate as real / 1000.0
  {
    SessionSamples(port, durationCs, rateMs, i);
    SessionSamples(port, durationCs, rateMs, i + 1);
    ElapsedStep(i + 1, Configure(port, rateMs).value.0);
  }

  /** Once configuration succeeds and the flush reply decodes, the session
      is the poll loop on the replies after them. */
  lemma SessionIsPoll(port: Port, durationCs: int, rateMs: Option<int>)
    requires |port.replies| >= 2 && Configure(port, rateMs).Ok? && IsAscii(port.replies[1])
    ensures GetBufferedData(port, durationCs, rateMs)
            == PollLoop(AfterFlush(port, rateMs), [], Configure(port, rateMs).value.0, durationCs)
  {
    var c := Configure(port, rateMs).value;
    SessionIsFlushAndPoll(port, durationCs, rateMs);
    FlushIsSkipped(port, rateMs, c.0, durationCs);
  }

  /** After a successful configuration the session is `FlushAndPoll`. */
  lemma SessionIsFlushAndPoll(port: Port, durationCs: int, rateMs: Option<int>)
    requires Configure(port, rateMs).Ok?
    ensures GetBufferedData(port, durationCs, rateMs)
            == FlushAndPoll(Configure(port, rateMs).value.1, Configure(port, rateMs).value.0, durationCs)
  {
  }

  /** A decodable flush reply is read and dropped. */
  lemma FlushIsSkipped(port: Port, rateMs: Option<int>, rate: int, durationCs: int)
    requires |port.replies| >= 2 && IsAscii(port.replies[1])
    ensures FlushAndPoll(Port(port.replies[1..], port.written + [ConfigureLine(rateMs)]), rate, durationCs)
            == PollLoop(AfterFlush(port, rateMs), [], rate, durationCs)
  {
    var w := port.written + [ConfigureLine(rateMs)];
    FlushMovesOn(port.replies, w);
    assert w + [FetchLine] == port.written + [ConfigureLine(rateMs), FetchLine];
  }

  /** A configured session with a decodable flush reply succeeds when its
      poll replies satisfy `PollLoopSucceeds`. */
  lemma SessionSucceeds(port: Port, durationCs: int, rateMs: Option<int>, polls: int)
    requires |port.replies| >= 2 && Configure(port, rateMs).Ok? && IsAscii(port.replies[1])
    requires var rate := Configure(port, rateMs).value.0;
             var replies := port.replies[2..];
             && 0 < polls <= |replies|
             && AllAscii(replies[..polls])
             && (exists k :: 0 < k <= |Arrivals(replies[..polls])| && TimeIsUp(k, rate, durationCs))
             && !BatchFails(Arrivals(replies[..polls]), 0, rate, durationCs)
    ensures GetBufferedData(port, durationCs, rateMs).Ok?
  {
    var rate := Configure(port, rateMs).value.0;
    var after := AfterFlush(port, rateMs);
    assert after.replies == port.replies[2..];
    PollFromNothingSucceeds(after, rate, durationCs, polls);
    SessionIsPoll(port, durationCs, rateMs);
  }

  /** `PollLoopSucceeds` for a poll that starts from no samples. */
  lemma PollFromNothingSucceeds(p: Port, rate: int, durationCs: int, polls: int)
    requires 0 < polls <= |p.replies| && AllAscii(p.replies[..polls])
    requires exists k :: 0 < k <= |Arrivals(p.replies[..polls])| && TimeIsUp(k, rate, durationCs)
    requires !BatchFails(Arrivals(p.replies[..polls]), 0, rate, durationCs)
    ensures PollLoop(p, [], rate, durationCs).Ok?
  {
    PollLoopSucceeds(p, [], rate, durationCs, polls);
  }

  /** A configured session with a decodable flush reply fails only as the
      poll loop fails on the replies after the flush. */
  lemma SessionFails(port: Port, durationCs: int, rateMs: Option<int>)
    requires |port.replies| >= 2 && Configure(port, rateMs).Ok? && IsAscii(port.replies[1])
    requires GetBufferedData(port, durationCs, rateMs).Err?
    ensures PollFails(port.replies[2..], 0, GetBufferedData(port, durationCs, rateMs).error,
                      Configure(port, rateMs).value.0, durationCs)
  {
    SessionIsPoll(port, durationCs, rateMs);
  }

  /** Configuration reads only the first reply: two ports that agree on it
      and on the log configure alike and both move past it. */
  lemma ConfigureOnFirst(pa: Port, pb: Port, rateMs: Option<int>)
    requires |pa.replies| > 0 && |pb.replies| > 0
    requires pa.replies[0] == pb.replies[0] && pa.written == pb.written
    ensures Configure(pa, rateMs).Ok? == Configure(pb, rateMs).Ok?
    ensures Configure(pa, rateMs).Ok? ==>
              && Configure(pa, rateMs).value.0 == Configure(pb, rateMs).value.0
              && Configure(pa, rateMs).value.1 == Port(pa.replies[1..], pa.written + [ConfigureLine(rateMs)])
              && Configure(pb, rateMs).value.1 == Port(pb.replies[1..], pa.written + [ConfigureLine(rateMs)])
  {
  }

  /** The fetch query can always be sent. */
  lemma FetchQueryAscii()
    ensures IsAscii(FetchQuery)
  {
  }

  /** An unchecked fetch of an ASCII reply succeeds and moves past it. */
  lemma FetchMovesOn(reply: string, rest: seq<string>, written: seq<string>)
    requires IsAscii(reply)
    ensures Query(Port([reply] + rest, written), FetchQuery, false).Ok?
    ensures Query(Port([reply] + rest, written), FetchQuery, false).value.1 == Port(rest, written + [FetchLine])
  {
    FetchQueryAscii();
    assert ([reply] + rest)[0] == reply;
    assert ([reply] + rest)[1..] == rest;
  }

  /** The flush fetch after configuration moves past the second reply. */
  lemma FlushMovesOn(replies: seq<string>, written: seq<string>)
    requires |replies| >= 2 && IsAscii(replies[1])
    ensures Query(Port(replies[1..], written), FetchQuery, false).Ok?
    ensures Query(Port(replies[1..], written), FetchQuery, false).value.1 == Port(replies[2..], written + [FetchLine])
  {
    assert [replies[1]] + replies[2..] == replies[1..];
    FetchMovesOn(replies[1], replies[2..], written);
  }

  lemma AfterFirst(first: string, second: string, rest: seq<string>)
    ensures ([first, second] + rest)[0] == first
    ensures ([first, second] + rest)[1..] == [second] + rest
  {
  }

  /** The flush reply's content never matters: any other ASCII reply in its
      place gives a session that succeeds exactly when this one does, with
      the same samples and the same port afterwards. */
  lemma FlushIgnored(first: string, flushA: string, flushB: string, rest: seq<string>,
                     written: seq<string>, durationCs: int, rateMs: Option<int>)
    requires IsAscii(flushA) && IsAscii(flushB)
    ensures var a := GetBufferedData(Port([first, flushA] + rest, written), durationCs, rateMs);
            var b := GetBufferedData(Port([first, flushB] + rest, written), durationCs, rateMs);
            (a.Ok? <==> b.Ok?) && (a.Ok? ==> a == b)
  {
    var pa := Port([first, flushA] + rest, written);
    var pb := Port([first, flushB] + rest, written);
    ConfigureOnFirst(pa, pb, rateMs);
    if Configure(pa, rateMs).Ok? {
      var ca := Configure(pa, rateMs).value;
      var cb := Configure(pb, rateMs).value;
      var w := written + [ConfigureLine(rateMs)];
      AfterFirst(first, flushA, rest);
      AfterFirst(first, flushB, rest);
      FetchMovesOn(flushA, rest, w);
      FetchMovesOn(flushB, rest, w);
      var fa := Query(ca.1, FetchQuery, false).value.1;
      var fb := Query(cb.1, FetchQuery, false).value.1;
      assert fa == fb;
      assert GetBufferedData(pa, durationCs, rateMs) == PollLoop(fa, [], ca.0, durationCs);
      assert GetBufferedData(pb, durationCs, rateMs) == PollLoop(fb, [], cb.0, durationCs);
    }
  }

  // ---------------------------------------------------------------------------
  // Worked examples
  // ---------------------------------------------------------------------------

  /** The usual reply to a checked command: one success entry per error query. */
  const Acknowledgement := "0,\"" + NoErrorText + "\"" + NoErrorEntry + "\n"

  /** A 10 ms interval over 0.01 s: the instrument acknowledges the count
      command, answers the flush with anything, then sends one record for a
      sample. The session returns exactly that sample, stamped 0.01 s, after
      three reads and writes. */
  lemma OneRecordSession(p: DataPoint, seps: string, flush: string, rest: seq<string>, written: seq<string>)
    requires |seps| == 11
    requires forall i :: 0 <= i < |seps| ==> seps[i] in FieldDelimiters
    requires forall k :: 0 <= k < 12 ==> FreeOf(p.Fields()[k], FieldDelimiters + RecordSeparator)
    requires forall k :: 0 <= k < 12 ==> IsAscii(p.Fields()[k])
    requires IsAscii(flush)
    ensures var reply := Join(p.Fields(), seps) + ";\n";
            GetBufferedData(Port([Acknowledgement, flush, reply] + rest, written), 1, Some(10))
            == Ok(([p.(timeElapsed := 0.01)],
                   Port(rest, written + [ConfigureLine(Some(10)), FetchLine, FetchLine])))
  {
    var reply := Join(p.Fields(), seps) + ";\n";
    var port := Port([Acknowledgement, flush, reply] + rest, written);
    var logged := written + [ConfigureLine(Some(10)), FetchLine];
    ScriptShape(Acknowledgement, flush, reply, rest, written, ConfigureLine(Some(10)));
    AcknowledgedCount(port, [flush, reply] + rest);
    SessionIsPoll(port, 1, Some(10));
    assert AfterFlush(port, Some(10)) == Port([reply] + rest, logged);
    OneReplyPoll(p, seps, rest, logged);
  }

  /** Bookkeeping on a three-reply script and its log. */
  lemma ScriptShape(a: string, b: string, c: string, rest: seq<string>, written: seq<string>, line: string)
    ensures ([a, b, c] + rest) == [a] + ([b, c] + rest)
    ensures ([a, b, c] + rest)[1] == b && ([a, b, c] + rest)[2..] == [c] + rest
    ensures written + [line, FetchLine] + [FetchLine] == written + [line, FetchLine, FetchLine]
  {
  }

  /** The count command for 10 ms, acknowledged, configures a 10 ms interval. */
  lemma AcknowledgedCount(port: Port, rest: seq<string>)
    requires port.replies == [Acknowledgement] + rest
    ensures Configure(port, Some(10)) == Ok((10, Port(rest, port.written + [ConfigureLine(Some(10))])))
  {
    CountCommandAscii(10);
    CheckedCommandAcknowledged(CountCommand(10), rest, port.written);
    assert port == Port([Acknowledgement] + rest, port.written);
  }

  /** One reply carrying one well-formed record ends a 10 ms, 0.01 s poll. */
  lemma OneReplyPoll(p: DataPoint, seps: string, rest: seq<string>, written: seq<string>)
    requires |seps| == 11
    requires forall i :: 0 <= i < |seps| ==> seps[i] in FieldDelimiters
    requires forall k :: 0 <= k < 12 ==> FreeOf(p.Fields()[k], FieldDelimiters + RecordSeparator)
    requires forall k :: 0 <= k < 12 ==> IsAscii(p.Fields()[k])
    ensures PollLoop(Port([Join(p.Fields(), seps) + ";\n"] + rest, written), [], 10, 1)
            == Ok(([p.(timeElapsed := 0.01)], Port(rest, written + [FetchLine])))
  {
    var record := Join(p.Fields(), seps);
    var reply := record + ";\n";
    var q := p.(timeElapsed := 0.01);
    FramedReply(p, seps);
    FetchMovesOn(reply, rest, written);
    assert ([reply] + rest)[0] == reply;
    assert ConsumeBatch([record], [], 10, 1) == Ok(Covered([q])) by {
      assert q.Fields() == p.Fields();
      PointFromJoinedFields(q, seps);
      assert Elapsed(1, 10) == 0.01;
    }
  }

  /** A record written out from a sample's fields, framed as the instrument
      sends it, decodes and comes back as the one record of its batch. */
  lemma FramedReply(p: DataPoint, seps: string)
    requires |seps| == 11
    requires forall i :: 0 <= i < |seps| ==> seps[i] in FieldDelimiters
    requires forall k :: 0 <= k < 12 ==> FreeOf(p.Fields()[k], FieldDelimiters + RecordSeparator)
    requires forall k :: 0 <= k < 12 ==> IsAscii(p.Fields()[k])
    ensures var record := Join(p.Fields(), seps);
            && IsAscii(record + ";\n")
            && RStrip(record + ";\n") == record + ";"
            && ';' in record + ";"
            && Records(record + ";") == [record]
  {
    var record := Join(p.Fields(), seps);
    JoinedRecord(p, seps);
    FramedRecord(record);
  }

  /** A sample's fields joined by delimiters make an ASCII record free of
      the record separator. */
  lemma JoinedRecord(p: DataPoint, seps: string)
    requires |seps| == 11
    requires forall i :: 0 <= i < |seps| ==> seps[i] in FieldDelimiters
    requires forall k :: 0 <= k < 12 ==> FreeOf(p.Fields()[k], FieldDelimiters + RecordSeparator)
    requires forall k :: 0 <= k < 12 ==> IsAscii(p.Fields()[k])
    ensures IsAscii(Join(p.Fields(), seps)) && FreeOf(Join(p.Fields(), seps), RecordSeparator)
    ensures |Join(p.Fields(), seps)| > 0
  {
    assert IsAscii(seps) by {
      forall i | 0 <= i < |seps|
        ensures seps[i] as int < 128
      {
        assert seps[i] in FieldDelimiters;
      }
    }
    JoinAscii(p.Fields(), seps);
    assert forall k :: 0 <= k < 12 ==> FreeOf(p.Fields()[k], RecordSeparator);
    JoinFreeOf(p.Fields(), seps, RecordSeparator);
  }

  /** One non-empty ASCII record without `;`, framed by `;` and a line end, decodes
      and comes back as the one record of its batch. */
  lemma FramedRecord(record: string)
    requires |record| > 0 && IsAscii(record) && FreeOf(record, RecordSeparator)
    ensures && IsAscii(record + ";\n")
            && RStrip(record + ";\n") == record + ";"
            && ';' in record + ";"
            && Records(record + ";") == [record]
  {
    AsciiAppend(record, ";\n");
    assert (record + ";\n")[..|record| + 1] == record + ";";
    assert (record + ";")[|record|] == ';';
    assert Join([record], Repeat(';', 0)) == record;
    RecordsOfFramedBatch([record]);
  }

  /** A 10 ms interval over 0.03 s gives exactly three samples, stamped
      0.01, 0.02 and 0.03 seconds. */
  lemma TenMillisecondsForThirtyMilliseconds(port: Port)
    requires GetBufferedData(port, 3, Some(10)).Ok?
    ensures var s := GetBufferedData(port, 3, Some(10)).value.0;
            && |s| == 3
            && s[0].timeElapsed == 0.01 && s[1].timeElapsed == 0.02 && s[2].timeElapsed == 0.03
  {
    SessionStopsAtLeastCount(port, 3, Some(10));
    SessionSamples(port, 3, Some(10), 0);
    SessionSamples(port, 3, Some(10), 1);
    SessionSamples(port, 3, Some(10), 2);
  }
}

=== FILE: text.dfy ===
/** The Python string operations the driver relies on, with their exact
    semantics: substring search, `replace(pat, '')`, `rstrip`, and `split` on
    one separator or on a regular expression that alternates single
    characters. */
module Text {

  /** Every character fits the ASCII codec. */
  predicate IsAscii(s: string) {
    forall i :: 0 <= i < |s| ==> s[i] as int < 128
  }

  lemma AsciiAppend(a: string, b: string)
    ensures IsAscii(a + b) <==> IsAscii(a) && IsAscii(b)
  {
    if IsAscii(a + b) {
      assert forall i :: 0 <= i < |a| ==> a[i] == (a + b)[i];
      assert forall i :: 0 <= i < |b| ==> b[i] == (a + b)[|a| + i];
    }
    if IsAscii(a) && IsAscii(b) {
      forall i | 0 <= i < |a + b|
        ensures (a + b)[i] as int < 128
      {
        if i >= |a| {
          assert (a + b)[i] == b[i - |a|];
        }
      }
    }
  }

  /** Python's `str.isspace` on ASCII characters: space, `\t` to `\r`, and the
      four separator controls 0x1C to 0x1F. Replies are ASCII-decoded, so no
      other character can reach a strip. */
  predicate IsSpace(c: char) {
    c == ' ' || (9 <= c as int <= 13) || (28 <= c as int <= 31)
  }

  predicate IsSemicolon(c: char) {
    c == ';'
  }

  predicate IsPrefix(p: string, s: string) {
    |p| <= |s| && s[..|p|] == p
  }

  /** Python's `sub in s`. */
  predicate Contains(s: string, sub: string)
    decreases |s|
  {
    IsPrefix(sub, s) || (|s| > 0 && Contains(s[1..], sub))
  }

  /** `x` repeated `n` times. */
  function Repeat<T>(x: T, n: nat): (r: seq<T>)
    ensures |r| == n
    ensures forall i :: 0 <= i < n ==> r[i] == x
  {
    if n == 0 then [] else [x] + Repeat(x, n - 1)
  }

  function Last<T>(s: seq<T>): T
    requires |s| > 0
  {
    s[|s| - 1]
  }

  // ---------------------------------------------------------------------------
  // replace(pat, '')
  // ---------------------------------------------------------------------------

  /** Python's `s.replace(pat, '')`: scanning from the left, every occurrence
      of `pat` that does not overlap an earlier removed one is deleted. */
  function RemoveAll(s: string, pat: string): (r: string)
    requires |pat| > 0
    ensures |r| <= |s|
    decreases |s|
  {
    if |s| < |pat| then s
    else if s[..|pat|] == pat then RemoveAll(s[|pat|..], pat)
    else [s[0]] + RemoveAll(s[1..], pat)
  }

  /** Text that does not contain the pattern is left as it is. */
  lemma {:induction false} RemoveAllAbsent(s: string, pat: string)
    requires |pat| > 0 && !Contains(s, pat)
    ensures RemoveAll(s, pat) == s
    decreases |s|
  {
    if |s| >= |pat| {
      RemoveAllAbsent(s[1..], pat);
      assert [s[0]] + s[1..] == s;
    }
  }

  /** A pattern whose first character occurs nowhere else in it: no proper
      suffix of it is also a prefix, so two occurrences never overlap and a
      removal cannot start inside text that precedes an occurrence. */
  predicate Unbordered(pat: string) {
    |pat| > 0 && forall i :: 1 <= i < |pat| ==> pat[i] != pat[0]
  }

  /** For an unbordered pattern, an occurrence of it splits the removal: text
      before and after it are cleaned independently. */
  lemma {:induction false} RemoveAllAround(a: string, pat: string, t: string)
    requires Unbordered(pat)
    ensures RemoveAll(a + pat + t, pat) == RemoveAll(a, pat) + RemoveAll(t, pat)
    decreases |a|
  {
    if |a| == 0 {
      AroundNothing(pat, t);
    } else {
      NoOccurrenceStartsEarly(a, pat, t);
      if (a + pat + t)[..|pat|] == pat {
        RemoveAllAround(a[|pat|..], pat, t);
        AroundHit(a, pat, t);
      } else {
        RemoveAllAround(a[1..], pat, t);
        AroundMiss(a, pat, t);
      }
    }
  }

  lemma AroundNothing(pat: string, t: string)
    requires |pat| > 0
    ensures RemoveAll("" + pat + t, pat) == RemoveAll("", pat) + RemoveAll(t, pat)
  {
    var s := "" + pat + t;
    assert s[..|pat|] == pat;
    assert s[|pat|..] == t;
  }

  /** An occurrence that starts inside a text shorter than the pattern would
      put the pattern's first character at a later position of the pattern. */
  lemma NoOccurrenceStartsEarly(a: string, pat: string, t: string)
    requires Unbordered(pat)
    ensures 0 < |a| < |pat| ==> (a + pat + t)[..|pat|] != pat
  {
    if 0 < |a| < |pat| {
      assert (a + pat + t)[..|pat|][|a|] == pat[0];
      assert pat[|a|] != pat[0];
    }
  }

  lemma AroundHit(a: string, pat: string, t: string)
    requires |pat| > 0 && |a| >= |pat| && (a + pat + t)[..|pat|] == pat
    requires RemoveAll(a[|pat|..] + pat + t, pat) == RemoveAll(a[|pat|..], pat) + RemoveAll(t, pat)
    ensures RemoveAll(a + pat + t, pat) == RemoveAll(a, pat) + RemoveAll(t, pat)
  {
    var s := a + pat + t;
    var u := a[|pat|..];
    assert a[..|pat|] == s[..|pat|];
    assert RemoveAll(a, pat) == RemoveAll(u, pat);
    assert s[|pat|..] == u + pat + t;
    assert RemoveAll(s, pat) == RemoveAll(u + pat + t, pat);
  }

  lemma AroundMiss(a: string, pat: string, t: string)
    requires |pat| > 0 && |a| > 0 && (a + pat + t)[..|pat|] != pat
    requires RemoveAll(a[1..] + pat + t, pat) == RemoveAll(a[1..], pat) + RemoveAll(t, pat)
    ensures RemoveAll(a + pat + t, pat) == RemoveAll(a, pat) + RemoveAll(t, pat)
  {
    var s := a + pat + t;
    var u := a[1..];
    assert s[1..] == u + pat + t;
    RemoveAllMissStep(s, pat);
    MissHead(a, pat, s);
    assert [a[0]] + (RemoveAll(u, pat) + RemoveAll(t, pat))
        == ([a[0]] + RemoveAll(u, pat)) + RemoveAll(t, pat);
  }

  /** Without an occurrence at its start, removal keeps the first character
      of text at least as long as the pattern. */
  lemma RemoveAllMissStep(s: string, pat: string)
    requires 0 < |pat| <= |s| && s[..|pat|] != pat
    ensures RemoveAll(s, pat) == [s[0]] + RemoveAll(s[1..], pat)
  {
  }

  /** Text shorter than the pattern is left as it is. */
  lemma RemoveAllShort(s: string, pat: string)
    requires 0 < |pat| && |s| < |pat|
    ensures RemoveAll(s, pat) == s
  {
  }

  /** Without an occurrence at its start, removal keeps the first character. */
  lemma MissHead(a: string, pat: string, s: string)
    requires |pat| > 0 && 0 < |a| <= |s| && |pat| <= |s| && a == s[..|a|] && s[..|pat|] != pat
    ensures RemoveAll(a, pat) == [a[0]] + RemoveAll(a[1..], pat)
  {
    if |a| >= |pat| {
      assert a[..|pat|] == s[..|pat|];
    } else {
      RemoveAllShort(a, pat);
      RemoveAllShort(a[1..], pat);
      assert [a[0]] + a[1..] == a;
    }
  }

  /** An occurrence at any position is found by the search. */
  lemma {:induction false} ContainsAt(s: string, sub: string, i: nat)
    requires i <= |s| && IsPrefix(sub, s[i..])
    ensures Contains(s, sub)
    decreases i
  {
    if i > 0 {
      assert s[1..][i - 1..] == s[i..];
      ContainsAt(s[1..], sub, i - 1);
    }
  }

  /** A string contains whatever is spliced into it. */
  lemma ContainsInside(a: string, sub: string, b: string)
    ensures Contains(a + sub + b, sub)
  {
    assert (a + sub + b)[|a|..][..|sub|] == sub;
    ContainsAt(a + sub + b, sub, |a|);
  }

  /** Text before a string keeps what the string contains. */
  lemma {:induction false} ContainsAfter(x: string, y: string, sub: string)
    requires Contains(y, sub)
    ensures Contains(x + y, sub)
    decreases |x|
  {
    if |x| > 0 {
      assert (x + y)[1..] == x[1..] + y;
      ContainsAfter(x[1..], y, sub);
    } else {
      assert x + y == y;
    }
  }

  /** Text after a string keeps what the string contains. */
  lemma {:induction false} ContainsBefore(x: string, y: string, sub: string)
    requires Contains(x, sub)
    ensures Contains(x + y, sub)
    decreases |x|
  {
    if IsPrefix(sub, x) {
      assert (x + y)[..|sub|] == x[..|sub|];
    } else {
      assert (x + y)[1..] == x[1..] + y;
      ContainsBefore(x[1..], y, sub);
    }
  }

  /** Text that lacks the first character of a pattern cannot contain it. */
  lemma {:induction false} MissingFirstChar(s: string, sub: string)
    requires |sub| > 0
    requires forall i :: 0 <= i < |s| ==> s[i] != sub[0]
    ensures !Contains(s, sub)
    decreases |s|
  {
    if |s| > 0 {
      MissingFirstChar(s[1..], sub);
      if |sub| <= |s| {
        assert s[..|sub|][0] == s[0] != sub[0];
      }
    }
  }

  /** Removing cannot always be repeated away: deleting an occurrence can
      splice the text around it into a fresh one. */
  lemma RemovalCanSplice(head: string, pat: string, tail: string)
    requires Unbordered(pat) && |head| < |pat| && |tail| < |pat|
    requires head + tail == pat
    ensures Contains(head + pat + tail, pat)
    ensures RemoveAll(head + pat + tail, pat) == pat
  {
    var s := head + pat + tail;
    assert s[|head|..][..|pat|] == pat;
    ContainsAt(s, pat, |head|);
    RemoveAllAround(head, pat, tail);
  }

  // ---------------------------------------------------------------------------
  // rstrip / strip
  // ---------------------------------------------------------------------------

  /** Python's `s.rstrip(chars)`: the longest prefix of `s` that does not end
      in a stripped character. */
  function TrimRight(s: string, strip: char -> bool): (r: string)
    ensures |r| <= |s| && r == s[..|r|]
    ensures |r| == 0 || !strip(r[|r| - 1])
    ensures forall i :: |r| <= i < |s| ==> strip(s[i])
    decreases |s|
  {
    if |s| > 0 && strip(s[|s| - 1]) then TrimRight(s[..|s| - 1], strip) else s
  }

  /** Python's `s.lstrip(chars)`: the longest suffix of `s` that does not
      start with a stripped character. */
  function TrimLeft(s: string, strip: char -> bool): (r: string)
    ensures |r| <= |s| && r == s[|s| - |r|..]
    ensures |r| == 0 || !strip(r[0])
    ensures forall i :: 0 <= i < |s| - |r| ==> strip(s[i])
    decreases |s|
  {
    if |s| > 0 && strip(s[0]) then
      var r := TrimLeft(s[1..], strip);
      assert s[1..][|s| - 1 - |r|..] == s[|s| - |r|..];
      assert forall i :: 1 <= i < |s| - |r| ==> s[1..][i - 1] == s[i];
      r
    else s
  }

  /** Python's `s.rstrip()`. */
  function RStrip(s: string): string {
    TrimRight(s, IsSpace)
  }

  /** Stripping characters that are all strippable off the end does not change
      what the strip of the whole leaves. */
  lemma {:induction false} TrimRightAppend(a: string, t: string, strip: char -> bool)
    requires forall i :: 0 <= i < |t| ==> strip(t[i])
    ensures TrimRight(a + t, strip) == TrimRight(a, strip)
    decreases |t|
  {
    if |t| > 0 {
      assert (a + t)[..|a + t| - 1] == a + t[..|t| - 1];
      TrimRightAppend(a, t[..|t| - 1], strip);
    } else {
      assert a + t == a;
    }
  }

  /** Stripping characters that are all strippable off the front does not
      change what the left strip of the whole leaves. */
  lemma {:induction false} TrimLeftPrepend(t: string, a: string, strip: char -> bool)
    requires forall i :: 0 <= i < |t| ==> strip(t[i])
    ensures TrimLeft(t + a, strip) == TrimLeft(a, strip)
    decreases |t|
  {
    if |t| > 0 {
      assert (t + a)[0] == t[0] && (t + a)[1..] == t[1..] + a;
      TrimLeftPrepend(t[1..], a, strip);
    } else {
      assert t + a == a;
    }
  }

  // ---------------------------------------------------------------------------
  // split
  // ---------------------------------------------------------------------------

  /** Python's `s.split(c)` for `delims == {c}`, and `re.split` on a pattern
      that alternates the single characters of `delims`: the pieces between
      successive delimiter characters, empty pieces kept. */
  function Split(s: string, delims: set<char>): (pieces: seq<string>)
    ensures |pieces| >= 1
    ensures forall k :: 0 <= k < |pieces| ==> FreeOf(pieces[k], delims)
    decreases |s|
  {
    if |s| == 0 then [""]
    else
      var rest := Split(s[1..], delims);
      if s[0] in delims then [""] + rest
      else [[s[0]] + rest[0]] + rest[1..]
  }

  /** The delimiter characters of `s`, in order. */
  function Separators(s: string, delims: set<char>): (seps: string)
    ensures forall i :: 0 <= i < |seps| ==> seps[i] in delims
    decreases |s|
  {
    if |s| == 0 then ""
    else (if s[0] in delims then [s[0]] else "") + Separators(s[1..], delims)
  }

  /** Pieces glued back together with the given separators between them. */
  function Join(pieces: seq<string>, seps: string): string
    requires |pieces| == |seps| + 1
    decreases |seps|
  {
    if |seps| == 0 then pieces[0]
    else pieces[0] + [seps[0]] + Join(pieces[1..], seps[1..])
  }

  predicate FreeOf(s: string, delims: set<char>) {
    forall j :: 0 <= j < |s| ==> s[j] !in delims
  }

  /** Delimiter-free pieces glued with separators outside `delims` give a
      text free of `delims`. */
  lemma {:induction false} JoinFreeOf(pieces: seq<string>, seps: string, delims: set<char>)
    requires |pieces| == |seps| + 1
    requires forall k :: 0 <= k < |pieces| ==> FreeOf(pieces[k], delims)
    requires forall i :: 0 <= i < |seps| ==> seps[i] !in delims
    ensures FreeOf(Join(pieces, seps), delims)
    decreases |seps|
  {
    if |seps| > 0 {
      JoinFreeOf(pieces[1..], seps[1..], delims);
      var tail := Join(pieces[1..], seps[1..]);
      var head := pieces[0] + [seps[0]];
      assert FreeOf(pieces[0], delims);
      assert FreeOf(head, delims);
      forall j | 0 <= j < |head + tail|
        ensures (head + tail)[j] !in delims
      {
        if j >= |head| {
          assert (head + tail)[j] == tail[j - |head|];
        }
      }
    }
  }

  /** ASCII pieces glued with ASCII separators give ASCII text at least as
      long as the separators. */
  lemma {:induction false} JoinAscii(pieces: seq<string>, seps: string)
    requires |pieces| == |seps| + 1
    requires forall k :: 0 <= k < |pieces| ==> IsAscii(pieces[k])
    requires IsAscii(seps)
    ensures IsAscii(Join(pieces, seps)) && |Join(pieces, seps)| >= |seps|
    decreases |seps|
  {
    if |seps| > 0 {
      assert IsAscii(seps[1..]) && IsAscii([seps[0]]);
      JoinAscii(pieces[1..], seps[1..]);
      AsciiAppend(pieces[0], [seps[0]]);
      AsciiAppend(pieces[0] + [seps[0]], Join(pieces[1..], seps[1..]));
    }
  }

  /** Splitting loses nothing: one more piece than separators, and gluing the
      pieces back with the separators found gives the input. */
  lemma {:induction false} SplitThenJoin(s: string, delims: set<char>)
    ensures |Split(s, delims)| == |Separators(s, delims)| + 1
    ensures Join(Split(s, delims), Separators(s, delims)) == s
    decreases |s|
  {
    if |s| > 0 {
      SplitThenJoin(s[1..], delims);
      var rest := Split(s[1..], delims);
      var seps := Separators(s[1..], delims);
      if s[0] in delims {
        assert Separators(s, delims) == [s[0]] + seps;
        assert Split(s, delims) == [""] + rest;
        assert ([""] + rest)[1..] == rest;
        assert ([s[0]] + seps)[1..] == seps;
        assert Join([""] + rest, [s[0]] + seps) == "" + [s[0]] + Join(rest, seps);
        assert [s[0]] + s[1..] == s;
      } else {
        assert Separators(s, delims) == seps;
        var p := [[s[0]] + rest[0]] + rest[1..];
        assert Split(s, delims) == p;
        if |seps| == 0 {
          assert Join(p, seps) == [s[0]] + rest[0];
          assert [s[0]] + s[1..] == s;
        } else {
          assert p[1..] == rest[1..];
          assert Join(p, seps) == [s[0]] + rest[0] + [seps[0]] + Join(rest[1..], seps[1..]);
          assert Join(rest, seps) == rest[0] + [seps[0]] + Join(rest[1..], seps[1..]);
          assert [s[0]] + s[1..] == s;
        }
      }
    }
  }

  /** A delimiter-free prefix joins the first piece of what follows. */
  lemma {:induction false} SplitFreePrefix(p: string, t: string, delims: set<char>)
    requires FreeOf(p, delims)
    ensures Split(p + t, delims) == [p + Split(t, delims)[0]] + Split(t, delims)[1..]
    ensures Separators(p + t, delims) == Separators(t, delims)
    decreases |p|
  {
    if |p| > 0 {
      assert (p + t)[1..] == p[1..] + t;
      SplitFreePrefix(p[1..], t, delims);
      assert (p + t)[0] == p[0];
      assert [p[0]] + (p[1..] + Split(t, delims)[0]) == p + Split(t, delims)[0];
    } else {
      assert p + t == t;
      assert p + Split(t, delims)[0] == Split(t, delims)[0];
      assert [Split(t, delims)[0]] + Split(t, delims)[1..] == Split(t, delims);
    }
  }

  /** Joining delimiter-free pieces with delimiter characters and splitting
      again gives back exactly the pieces and the separators. */
  lemma {:induction false} JoinThenSplit(pieces: seq<string>, seps: string, delims: set<char>)
    requires |pieces| == |seps| + 1
    requires forall k :: 0 <= k < |pieces| ==> FreeOf(pieces[k], delims)
    requires forall i :: 0 <= i < |seps| ==> seps[i] in delims
    ensures Split(Join(pieces, seps), delims) == pieces
    ensures Separators(Join(pieces, seps), delims) == seps
    decreases |seps|
  {
    if |seps| == 0 {
      SplitFreePrefix(pieces[0], "", delims);
      assert pieces[0] + "" == pieces[0];
      assert pieces == [pieces[0]];
    } else {
      var tail := Join(pieces[1..], seps[1..]);
      JoinThenSplit(pieces[1..], seps[1..], delims);
      var u := [seps[0]] + tail;
      assert u[1..] == tail;
      assert Split(u, delims) == [""] + pieces[1..];
      assert Separators(u, delims) == [seps[0]] + seps[1..];
      assert Join(pieces, seps) == pieces[0] + u;
      SplitFreePrefix(pieces[0], u, delims);
      assert pieces[0] + "" == pieces[0];
      assert ([""] + pieces[1..])[1..] == pieces[1..];
      assert [pieces[0]] + pieces[1..] == pieces;
      assert [seps[0]] + seps[1..] == seps;
    }
  }

  /** `t` is the text after the last delimiter of `s` (all of `s` if it has
      none): a delimiter-free suffix that starts `s` or follows a delimiter. */
  predicate IsLastField(t: string, s: string, delims: set<char>) {
    && |t| <= |s|
    && s[|s| - |t|..] == t
    && FreeOf(t, delims)
    && (|t| == |s| || s[|s| - |t| - 1] in delims)
  }

  /** A suffix longer than the last field reaches back over a delimiter. */
  lemma LongerSuffixHasDelimiter(t: string, u: string, s: string, delims: set<char>)
    requires IsLastField(t, s, delims)
    requires |u| <= |s| && s[|s| - |u|..] == u
    ensures |t| < |u| ==> !FreeOf(u, delims)
  {
    if |t| < |u| {
      assert u[|u| - |t| - 1] == s[|s| - |t| - 1];
    }
  }

  /** At most one string is the last field of `s`. */
  lemma LastFieldUnique(t: string, u: string, s: string, delims: set<char>)
    requires IsLastField(t, s, delims) && IsLastField(u, s, delims)
    ensures t == u
  {
    LongerSuffixHasDelimiter(t, u, s, delims);
    LongerSuffixHasDelimiter(u, t, s, delims);
    assert |t| == |u|;
  }

  /** A split into one piece leaves the input whole. */
  lemma SinglePieceIsWhole(s: string, delims: set<char>)
    requires |Split(s, delims)| == 1
    ensures Split(s, delims)[0] == s
  {
    SplitThenJoin(s, delims);
  }

  /** The last piece of a split is the last field of its input, and it is
      shorter than the input as soon as there is more than one piece. */
  lemma {:induction false} LastPieceIsLastField(s: string, delims: set<char>)
    ensures IsLastField(Last(Split(s, delims)), s, delims)
    ensures |Split(s, delims)| > 1 ==> |Last(Split(s, delims))| < |s|
    decreases |s|
  {
    if |s| > 0 {
      LastPieceIsLastField(s[1..], delims);
      LastPieceStep(s, delims);
    }
  }

  /** The inductive step of `LastPieceIsLastField`. */
  lemma LastPieceStep(s: string, delims: set<char>)
    requires |s| > 0
    requires IsLastField(Last(Split(s[1..], delims)), s[1..], delims)
    requires |Split(s[1..], delims)| > 1 ==> |Last(Split(s[1..], delims))| < |s| - 1
    ensures IsLastField(Last(Split(s, delims)), s, delims)
    ensures |Split(s, delims)| > 1 ==> |Last(Split(s, delims))| < |s|
  {
    SplitStep(s, delims);
    if |Split(s, delims)| == 1 {
      SinglePieceIsWhole(s, delims);
    } else {
      LastFieldReachesBack(s, Last(Split(s[1..], delims)), delims);
    }
  }

  /** How one more leading character changes the number of pieces and the
      last piece. */
  lemma SplitStep(s: string, delims: set<char>)
    requires |s| > 0
    ensures s[0] in delims ==> |Split(s, delims)| == |Split(s[1..], delims)| + 1
    ensures s[0] !in delims ==> |Split(s, delims)| == |Split(s[1..], delims)|
    ensures |Split(s, delims)| > 1 ==> Last(Split(s, delims)) == Last(Split(s[1..], delims))
  {
    var rest := Split(s[1..], delims);
    var pieces := Split(s, delims);
    if s[0] in delims {
      assert pieces == [""] + rest;
      assert pieces[|pieces| - 1] == rest[|rest| - 1];
    } else {
      assert pieces == [[s[0]] + rest[0]] + rest[1..];
      if |rest| > 1 {
        assert pieces[|pieces| - 1] == rest[1..][|rest| - 2] == rest[|rest| - 1];
      }
    }
  }

  /** The last field of the tail is the last field of the whole once a
      delimiter separates it from the first character. */
  lemma LastFieldReachesBack(s: string, t: string, delims: set<char>)
    requires |s| > 0 && IsLastField(t, s[1..], delims)
    requires |t| < |s| - 1 || s[0] in delims
    ensures IsLastField(t, s, delims) && |t| < |s|
  {
    assert s[1..][|s| - 1 - |t|..] == s[|s| - |t|..];
    if |t| < |s| - 1 {
      assert s[1..][|s| - 1 - |t| - 1] == s[|s| - |t| - 1];
    }
  }
}

=== FILE: transport.dfy ===
/** The serial port as a script: the replies `readline` will hand back, in
    order, and the log of everything written to the port. Opening, closing and
    discovering the port are outside this model. */
module Transport {
  import opened Errors

  /** `replies` are the lines still to be read, oldest first; an empty reply
      is a read that timed out. `written` holds every write, oldest first. */
  datatype Port = Port(replies: seq<string>, written: seq<string>)

  /** `Serial.write`: the bytes join the log and nothing is read. */
  function Write(port: Port, bytes: string): (p: Port)
    ensures p.replies == port.replies
    ensures p.written == port.written + [bytes]
  {
    port.(written := port.written + [bytes])
  }

  /** `Serial.readline`: the next scripted reply. When the script is used up
      the model stops with `OutOfReplies` instead of blocking. */
  function ReadLine(port: Port): (r: Result<(string, Port)>)
    ensures r.Ok? <==> |port.replies| > 0
    ensures r.Ok? ==> r.value.0 == port.replies[0]
    ensures r.Ok? ==> r.value.1 == Port(port.replies[1..], port.written)
    ensures r.Err? ==> r.error == OutOfReplies
  {
    if |port.replies| == 0 then Err(OutOfReplies)
    else Ok((port.replies[0], Port(port.replies[1..], port.written)))
  }
}

=== FILE: xip_instrument.dfy ===
/** The protocol engine shared by XIP instruments: every instruction is one
    written line, every query one line read back, and a checked instruction
    carries the error-buffer query in the same round trip. */
module XipInstrument {
  import opened Errors
  import opened Text
  import opened Transport

  /** Appended to a checked instruction: asks for the whole error buffer. */
  const ErrorQuery := ";:SYSTem:ERRor:ALL?"
  /** Present in the reply whenever the error buffer reported success. */
  const NoErrorText := "No error"
  /** The error buffer's success entry as it follows a payload. */
  const NoErrorEntry := ";0,\"No error\""
  const TimeoutMessage := "Communication timed out"
  const ScpiErrorPrefix := "SCPI command error: "
  const RecordSeparator: set<char> := {';'}

  /** The line a query puts on the wire, before its terminator. */
  function Outgoing(query: string, checkErrors: bool): string {
    if checkErrors then query + ErrorQuery else query
  }

  /** `_usb_command`: the instruction encoded as ASCII, one line feed after it. */
  function UsbCommand(port: Port, command: string): (r: Result<Port>)
    ensures r.Ok? <==> IsAscii(command)
    ensures r.Ok? ==> r.value == Port(port.replies, port.written + [command + "\n"])
    ensures r.Err? ==> r.error == UnicodeEncode
  {
    if IsAscii(command) then Ok(Write(port, command + "\n")) else Err(UnicodeEncode)
  }

  /** `_usb_query`: one line written, then one line read and decoded as ASCII. */
  function UsbQuery(port: Port, query: string): (r: Result<(string, Port)>)
    ensures r.Ok? <==> IsAscii(query) && |port.replies| > 0 && IsAscii(port.replies[0])
    ensures r.Ok? ==> r.value == (port.replies[0], Port(port.replies[1..], port.written + [query + "\n"]))
    ensures r.Err? ==> r.error == (if !IsAscii(query) then UnicodeEncode
                                   else if |port.replies| == 0 then OutOfReplies
                                   else UnicodeDecode)
  {
    var sent :- UsbCommand(port, query);
    var read :- ReadLine(sent);
    if IsAscii(read.0) then Ok(read) else Err(UnicodeDecode)
  }

  /** `_error_check`: an empty reply is a timeout; a reply without the
      success text is an instrument error carrying the reply's last
      `;`-separated field; anything else passes. */
  function ErrorCheck(response: string): (r: Result<()>)
    ensures r.Ok? <==> response != "" && Contains(response, NoErrorText)
    ensures response == "" ==> r == Err(Connection(TimeoutMessage))
    ensures response == "" ==> !IsPrefix(ScpiErrorPrefix, r.error.message)
    ensures r.Err? && response != "" ==>
              && r.error.Connection?
              && IsPrefix(ScpiErrorPrefix, r.error.message)
              && IsLastField(r.error.message[|ScpiErrorPrefix|..], response, RecordSeparator)
  {
    if response == "" then
      assert TimeoutMessage[0] != ScpiErrorPrefix[0];
      Err(Connection(TimeoutMessage))
    else if !Contains(response, NoErrorText) then
      var field := Last(Split(response, RecordSeparator));
      LastPieceIsLastField(response, RecordSeparator);
      assert (ScpiErrorPrefix + field)[|ScpiErrorPrefix|..] == field;
      Err(Connection(ScpiErrorPrefix + field))
    else
      Ok(())
  }

  /** `query`: one round trip. A checked query fails as `ErrorCheck` says and
      otherwise drops every success entry; both forms drop trailing
      whitespace. */
  function Query(port: Port, query: string, checkErrors: bool): (r: Result<(string, Port)>)
    ensures r.Ok? ==> |port.replies| > 0
    ensures r.Ok? ==> r.value.1 == Port(port.replies[1..], port.written + [Outgoing(query, checkErrors) + "\n"])
    ensures r.Ok? ==> |r.value.0| == 0 || !IsSpace(Last(r.value.0))
    ensures !checkErrors ==>
              (r.Ok? <==> IsAscii(query) && |port.replies| > 0 && IsAscii(port.replies[0]))
    ensures !checkErrors && r.Ok? ==> r.value.0 == RStrip(port.replies[0])
    ensures checkErrors ==>
              (r.Ok? <==> && IsAscii(query) && |port.replies| > 0 && IsAscii(port.replies[0])
                          && port.replies[0] != "" && Contains(port.replies[0], NoErrorText))
    ensures checkErrors && r.Ok? ==> r.value.0 == RStrip(RemoveAll(port.replies[0], NoErrorEntry))
    ensures (checkErrors && IsAscii(query) && |port.replies| > 0 && IsAscii(port.replies[0])
             && ErrorCheck(port.replies[0]).Err?) ==> r == Err(ErrorCheck(port.replies[0]).error)
    ensures !IsAscii(query) ==> r == Err(UnicodeEncode)
    ensures IsAscii(query) && |port.replies| == 0 ==> r == Err(OutOfReplies)
    ensures IsAscii(query) && |port.replies| > 0 && !IsAscii(port.replies[0]) ==> r == Err(UnicodeDecode)
  {
    AsciiAppend(query, ErrorQuery);
    var read :- UsbQuery(port, Outgoing(query, checkErrors));
    var response := read.0;
    if checkErrors then
      var checked := ErrorCheck(response);
      if checked.Err? then Err(checked.error)
      else Ok((RStrip(RemoveAll(response, NoErrorEntry)), read.1))
    else
      Ok((RStrip(response), read.1))
  }

  /** What a checked command's own error check sees: the checked query's
      result must still be non-empty and still mention success. */
  predicate AcknowledgedTwice(reply: string) {
    var stripped := RStrip(RemoveAll(reply, NoErrorEntry));
    stripped != "" && Contains(stripped, NoErrorText)
  }

  /** `command`: an unchecked command is one write and no read; a checked
      one is `CheckedCommand`. */
  function Command(port: Port, command: string, checkErrors: bool): (r: Result<Port>)
    ensures !checkErrors ==> (r.Ok? <==> IsAscii(command))
    ensures !checkErrors && r.Ok? ==> r.value == Port(port.replies, port.written + [command + "\n"])
    ensures checkErrors && r.Ok? ==>
              && |port.replies| > 0
              && r.value == Port(port.replies[1..], port.written + [command + ErrorQuery + ErrorQuery + "\n"])
    ensures checkErrors ==>
              (r.Ok? <==> && IsAscii(command) && |port.replies| > 0 && IsAscii(port.replies[0])
                          && port.replies[0] != "" && Contains(port.replies[0], NoErrorText)
                          && AcknowledgedTwice(port.replies[0]))
    ensures !checkErrors && r.Err? ==> r.error == UnicodeEncode
    ensures checkErrors && r.Err? ==> r.error == CheckedCommandError(port, command)
  {
    if checkErrors then CheckedCommand(port, command) else UsbCommand(port, command)
  }

  /** The error a failing checked command raises, in the order the code
      meets the failures: encoding the command, running out of replies,
      decoding the reply, the check of the raw reply, and the check of the
      reply once cleaned. */
  function CheckedCommandError(port: Port, command: string): Error {
    if !IsAscii(command) then UnicodeEncode
    else if |port.replies| == 0 then OutOfReplies
    else if !IsAscii(port.replies[0]) then UnicodeDecode
    else
      match ErrorCheck(port.replies[0])
      case Err(e) => e
      case Ok(_) =>
        match ErrorCheck(RStrip(RemoveAll(port.replies[0], NoErrorEntry)))
        case Err(e) => e
        // A command that passes both checks does not fail, so this arm is
        // never the error of a failing command.
        case Ok(_) => OutOfReplies
  }

  /** The checked branch of `command`: it appends the error query itself and
      then goes through a checked query, which appends it a second time, and
      it checks the already cleaned result once more. */
  function CheckedCommand(port: Port, command: string): (r: Result<Port>)
    ensures r.Ok? ==>
              && |port.replies| > 0
              && r.value == Port(port.replies[1..], port.written + [command + ErrorQuery + ErrorQuery + "\n"])
    ensures r.Ok? <==> && IsAscii(command) && |port.replies| > 0 && IsAscii(port.replies[0])
                       && port.replies[0] != "" && Contains(port.replies[0], NoErrorText)
                       && AcknowledgedTwice(port.replies[0])
    ensures r.Err? ==> r.error == CheckedCommandError(port, command)
  {
    AsciiAppend(command, ErrorQuery);
    var answered :- Query(port, command + ErrorQuery, true);
    var checked := ErrorCheck(answered.0);
    if checked.Err? then Err(checked.error) else Ok(answered.1)
  }

  /** The success entry is the success text in its wire framing, and its
      separator occurs only at its start. */
  lemma NoErrorEntryShape()
    ensures Contains(NoErrorEntry, NoErrorText)
    ensures Unbordered(NoErrorEntry)
    ensures IsAscii(NoErrorEntry)
  {
    assert NoErrorEntry[4..][..|NoErrorText|] == NoErrorText;
    ContainsAt(NoErrorEntry, NoErrorText, 4);
  }

  /** A reply holding the success entry passes the error check. */
  lemma EntryPasses(head: string, tail: string)
    ensures Contains(head + NoErrorEntry + tail, NoErrorText)
  {
    NoErrorEntryShape();
    ContainsAfter(head, NoErrorEntry, NoErrorText);
    ContainsBefore(head + NoErrorEntry, tail, NoErrorText);
  }

  /** A checked query on a reply that passes the error check returns the
      cleaned reply and consumes exactly that reply. */
  lemma CheckedQueryOnReply(reply: string, query: string, rest: seq<string>, written: seq<string>)
    requires IsAscii(query) && IsAscii(reply) && reply != "" && Contains(reply, NoErrorText)
    ensures Query(Port([reply] + rest, written), query, true)
            == Ok((RStrip(RemoveAll(reply, NoErrorEntry)), Port(rest, written + [query + ErrorQuery + "\n"])))
  {
    assert ([reply] + rest)[1..] == rest;
  }

  /** Text facts about a payload followed by the success entry and trailing
      whitespace. */
  lemma PayloadReply(payload: string, tail: string)
    requires IsAscii(payload) && IsAscii(tail)
    requires forall i :: 0 <= i < |tail| ==> IsSpace(tail[i])
    requires !Contains(payload, NoErrorEntry)
    ensures IsAscii(payload + NoErrorEntry + tail)
    ensures Contains(payload + NoErrorEntry + tail, NoErrorText)
    ensures RStrip(RemoveAll(payload + NoErrorEntry + tail, NoErrorEntry)) == RStrip(payload)
  {
    NoErrorEntryShape();
    AsciiAppend(payload, NoErrorEntry);
    AsciiAppend(payload + NoErrorEntry, tail);
    EntryPasses(payload, tail);
    PayloadReplyCleaned(payload, tail);
  }

  lemma PayloadReplyCleaned(payload: string, tail: string)
    requires forall i :: 0 <= i < |tail| ==> IsSpace(tail[i])
    requires !Contains(payload, NoErrorEntry)
    ensures RStrip(RemoveAll(payload + NoErrorEntry + tail, NoErrorEntry)) == RStrip(payload)
  {
    NoErrorEntryShape();
    RemoveAllAround(payload, NoErrorEntry, tail);
    MissingFirstChar(tail, NoErrorEntry);
    RemoveAllAbsent(tail, NoErrorEntry);
    RemoveAllAbsent(payload, NoErrorEntry);
    assert RemoveAll(payload + NoErrorEntry + tail, NoErrorEntry) == payload + tail;
    TrimRightAppend(payload, tail, IsSpace);
  }

  /** A reply that is a payload, the success entry and a line terminator
      comes back from a checked query as exactly the payload, right-stripped,
      provided the payload does not itself hold the success entry. */
  lemma CheckedQueryReturnsPayload(payload: string, tail: string, query: string, rest: seq<string>, written: seq<string>)
    requires IsAscii(query) && IsAscii(payload) && IsAscii(tail)
    requires forall i :: 0 <= i < |tail| ==> IsSpace(tail[i])
    requires !Contains(payload, NoErrorEntry)
    ensures Query(Port([payload + NoErrorEntry + tail] + rest, written), query, true)
            == Ok((RStrip(payload), Port(rest, written + [query + ErrorQuery + "\n"])))
  {
    PayloadReply(payload, tail);
    CheckedQueryOnReply(payload + NoErrorEntry + tail, query, rest, written);
  }

  /** A reply in which removing the success entry splices a new one. */
  function SplicedReply(): string {
    ";0,\"" + NoErrorEntry + (NoErrorText + "\"")
  }

  lemma SplicedReplyText()
    ensures IsAscii(SplicedReply()) && Contains(SplicedReply(), NoErrorText)
    ensures RemoveAll(SplicedReply(), NoErrorEntry) == NoErrorEntry
  {
    SplicedRemoval();
    EntryPasses(";0,\"", NoErrorText + "\"");
    SplicedAscii();
  }

  lemma SplicedRemoval()
    ensures RemoveAll(SplicedReply(), NoErrorEntry) == NoErrorEntry
  {
    var head := ";0,\"";
    var tail := NoErrorText + "\"";
    assert head + tail == NoErrorEntry;
    NoErrorEntryShape();
    RemovalCanSplice(head, NoErrorEntry, tail);
  }

  lemma SplicedAscii()
    ensures IsAscii(SplicedReply())
  {
    var head := ";0,\"";
    var tail := NoErrorText + "\"";
    assert IsAscii(head + NoErrorEntry) by {
      NoErrorEntryShape();
      AsciiAppend(head, NoErrorEntry);
    }
    assert IsAscii(tail) by {
      AsciiAppend(NoErrorText, "\"");
    }
    AsciiAppend(head + NoErrorEntry, tail);
  }

  /** The checked query does not always remove every success entry: an
      entry spliced together by the removal survives it. */
  lemma CheckedQueryCanKeepEntry(query: string, rest: seq<string>, written: seq<string>)
    requires IsAscii(query)
    ensures var r := Query(Port([SplicedReply()] + rest, written), query, true);
            r.Ok? && Contains(r.value.0, NoErrorEntry)
  {
    assert Query(Port([SplicedReply()] + rest, written), query, true).value.0
           == RStrip(NoErrorEntry) by {
      SplicedReplyText();
      CheckedQueryOnReply(SplicedReply(), query, rest, written);
    }
    assert Contains(RStrip(NoErrorEntry), NoErrorEntry) by {
      EntryKeepsItsEnd();
      ContainsAt(NoErrorEntry, NoErrorEntry, 0);
    }
  }

  /** The success entry does not end in whitespace. */
  lemma EntryKeepsItsEnd()
    ensures RStrip(NoErrorEntry) == NoErrorEntry
  {
    assert !IsSpace(NoErrorEntry[|NoErrorEntry| - 1]);
  }

  /** A checked command whose reply passes both checks writes the doubled
      error query and consumes exactly that reply. */
  lemma CheckedCommandOnReply(reply: string, command: string, rest: seq<string>, written: seq<string>)
    requires IsAscii(command) && IsAscii(reply) && reply != "" && Contains(reply, NoErrorText)
    requires AcknowledgedTwice(reply)
    ensures Command(Port([reply] + rest, written), command, true)
            == Ok(Port(rest, written + [command + ErrorQuery + ErrorQuery + "\n"]))
  {
    assert ([reply] + rest)[1..] == rest;
  }

  /** The usual acknowledgement of a checked command, one success entry per
      error query it carried, passes both checks and consumes one reply. */
  lemma CheckedCommandAcknowledged(command: string, rest: seq<string>, written: seq<string>)
    requires IsAscii(command)
    ensures var ack := "0,\"" + NoErrorText + "\"" + NoErrorEntry + "\n";
            Command(Port([ack] + rest, written), command, true)
            == Ok(Port(rest, written + [command + ErrorQuery + ErrorQuery + "\n"]))
  {
    var first := "0,\"" + NoErrorText + "\"";
    var ack := first + NoErrorEntry + "\n";
    FirstEntryShape();
    AckShape(first);
    CheckedCommandOnReply(ack, command, rest, written);
  }

  /** A checked command whose reply holds nothing but one success entry
      passes the first check and then times out: the cleaned reply is
      empty, which the second check reads as no reply. */
  lemma CheckedCommandLoneEntryTimesOut(command: string, rest: seq<string>, written: seq<string>)
    requires IsAscii(command)
    ensures Command(Port([NoErrorEntry + "\n"] + rest, written), command, true)
            == Err(Connection(TimeoutMessage))
  {
    var reply := NoErrorEntry + "\n";
    assert "" + NoErrorEntry + "\n" == reply;
    assert IsAscii("\n") && IsSpace("\n"[0]);
    PayloadReply("", "\n");
    assert RStrip(RemoveAll(reply, NoErrorEntry)) == "";
    assert ([reply] + rest)[0] == reply;
  }

  /** The instrument's first success entry, the one without a leading `;`. */
  lemma FirstEntryShape()
    ensures var first := "0,\"" + NoErrorText + "\"";
            && IsAscii(first) && !Contains(first, NoErrorEntry) && RStrip(first) == first
            && Contains(first, NoErrorText)
  {
    var first := "0,\"" + NoErrorText + "\"";
    AsciiAppend("0,\"", NoErrorText);
    AsciiAppend("0,\"" + NoErrorText, "\"");
    MissingFirstChar(first, NoErrorEntry);
    ContainsInside("0,\"", NoErrorText, "\"");
    assert !IsSpace(first[|first| - 1]);
  }

  /** A reply of one entry that passes the error check, then the success
      entry and a line terminator, is acknowledged twice. */
  lemma AckShape(first: string)
    requires IsAscii(first) && !Contains(first, NoErrorEntry) && RStrip(first) == first
    requires Contains(first, NoErrorText)
    ensures var ack := first + NoErrorEntry + "\n";
            IsAscii(ack) && ack != "" && Contains(ack, NoErrorText) && AcknowledgedTwice(ack)
  {
    PayloadReply(first, "\n");
  }
}
